=== FILE: README.md ===
# CertOps renewal job — Dafny model

CertOps keeps TLS certificates for a list of domains fresh. A scheduler wakes
up periodically and runs one renewal cycle each time:

1. It scans the certificate store for domains whose `fullchain.pem` is
   missing or has fewer than 30 days left.
2. It opens one ACME order for all of them.
3. It groups the order's DNS-01 challenges by record name
   (`_acme-challenge.<domain without its leading * and . characters>`).
4. For each group in turn it:
   - clears the TXT record set in Azure DNS;
   - merge-adds one TXT value per challenge;
   - polls the challenge statuses up to 10 times, one second apart;
   - when the poll passes, issues a certificate for the first expiring
     domain and writes `fullchain.pem` and `privkey.pem`.

Any exception ends the cycle and is caught at the top. The repository also
keeps an older job: a DNS service with clear, filter-remove and single add,
and an ACME service that selects domains by asking the ACME server for each
domain's order.

The model has one module per part of the job:

| module | models |
|---|---|
| `Naming` | `TrimStart('*', '.')`, the record name, and the zone-relative record name |
| `TxtZone` | the zone as a map from relative record name to TXT record set |
| `AzureDns` | the current DNS service: read, clear, merge-add |
| `LegacyDns` | the older DNS service: clear, filter-remove, single add |
| `CertStore`, `Expiry` | the certificate store and the expiry scan |
| `LegacyAcme` | the older order-based selection and flat challenge map |
| `Challenges` | grouping challenges by record name |
| `Poll` | one attempt and the bounded poll |
| `Issuance` | issuing a certificate and saving it |
| `Cycle` | one renewal cycle and the scheduler loop |

`Outcomes` and `Seqs` are shared helpers.

Calls into code that is not modelled become parameters:

- the Azure SDK calls are per-call `Reply` values, delivered or failed with
  an HTTP status;
- the ACME server is a prober giving the status each challenge reports on
  each attempt, plus the order reply;
- the key-authorization digest is a function from challenge to string;
- key generation and download are an `IssueOracle`;
- the clock is an integer count of .NET ticks.

Exceptions are values (`Result`, `DnsResult`, the faults of `Outcomes`).
The error paths of the modelled operations are modelled, except the ones
named under "Left out". Some behaviour of the code is easy to misread:

- A certificate file that does not parse throws from the certificate
  constructor. The call at CertOps/Services/AcmeService.cs:99 is unguarded,
  so one such file aborts the whole scan.
- `Validate` is sent again on every poll attempt
  (CertOps/Handler/ScheduleHandler.cs:79).
- The status check at CertOps/Handler/ScheduleHandler.cs:88 fails only an
  absent or Invalid status, so a Pending or Processing challenge passes.
- Issuance sits inside the group loop (CertOps/Handler/ScheduleHandler.cs:102-108),
  so it runs once per passing group. The files go to the untrimmed folder
  (CertOps/Services/AcmeService.cs:55), and the key file receives the
  certificate PEM (CertOps/Services/AcmeService.cs:71).
- The read at CertOps/Services/AzureDnsService.cs:35-54 addresses the record
  name as given, without making it zone-relative.
- The two certificate files are written one after the other
  (CertOps/Services/AcmeService.cs:58-72). A failed second write leaves the
  first file written.

## Model

| member | source | states |
|---|---|---|
| Naming.TrimShape | CertOps/Services/AcmeService.cs:89 | `TrimStart('*', '.')` removes exactly the leading run of `*` and `.`: the result is a suffix, everything removed is a marker, and the result does not start with one |
| Naming.TrimLeadingWildcard | CertOps/Services/AcmeService.cs:89 | the folder name never starts with `*` or `.` and is never longer than the domain; a domain that does not start with either is its own folder |
| Naming.TrimIgnoresMarkerPrefix | CertOps/Services/AcmeService.cs:89 | a prefix made only of `*` and `.` characters does not change the trimmed result |
| Naming.TrimIdempotent | CertOps/Services/AcmeService.cs:89 | trimming twice gives the same folder as trimming once |
| Naming.ChallengeRecordName | CertOps/Services/AcmeService.cs:128 | the record name starts with `_acme-challenge.` and the rest is the trimmed identifier |
| Naming.RecordNameSharedIff | CertOps/Services/AcmeService.cs:128-134 | two identifiers land under one record name if and only if their trimmed forms are equal |
| Naming.WildcardSharesApexRecordName | CertOps/Services/AcmeService.cs:128 | `*.d` and `d` have the same record name |
| Naming.WildcardFolderExample | CertOps/Services/AcmeService.cs:89 | the folder of `*.example.com` is `example.com` |
| Naming.TrimTrailingDotsShape | CertOps/Services/AzureDnsService.cs:86 | `TrimEnd('.')` removes exactly the trailing run of dots |
| Naming.TrimTrailingDots | CertOps/Services/AzureDnsService.cs:86 | `TrimEnd('.')` never leaves a trailing dot and never lengthens the string; a string that does not end with a dot is unchanged |
| Naming.EndsWithIgnoresSuffixCase | CertOps/Services/AzureDnsService.cs:83 | the zone-suffix test gives the same answer for every casing of the zone name |
| Naming.EndsWithItsSuffix | CertOps/Services/AzureDnsService.cs:83 | a name made of any prefix followed by the zone name passes the zone-suffix test |
| Naming.RelativeRecordName | CertOps/Services/AzureDnsService.cs:81-90 | a name that does not end with the zone name, ignoring case, is returned unchanged; the result is never longer than the input |
| Naming.RelativeRecordNameShape | CertOps/Services/AzureDnsService.cs:83-87 | a name ending with the zone name loses that suffix and then every dot before it, keeping a prefix that does not end with a dot |
| Naming.ChallengeNameInZoneExample | CertOps/Services/AzureDnsService.cs:83-87 | `_acme-challenge.example.com` in zone `example.com` becomes `_acme-challenge`, and so does `_acme-challenge.EXAMPLE.com`, because the suffix comparison ignores case |
| Naming.LookalikeNameExample | CertOps/Services/AzureDnsService.cs:83-86 | there is no label-boundary check: `badexample.com` in zone `example.com` becomes `bad` |
| Naming.ZoneApexExample | CertOps/Services/AzureDnsService.cs:83-86 | the zone apex becomes the empty relative name |
| TxtZone.Fetch | CertOps/Services/AzureDnsService.cs:39-43 | a lookup is a 404 if and only if the provider answered 404 or the name is absent; it finds the stored record set if and only if the call went through and the name is present; any other failure keeps its status |
| AzureDns.ReadRecord | CertOps/Services/AzureDnsService.cs:35-54 | a 404 reads as the empty list; any other failed lookup throws a request failure with its status; a found set reads as the values of all its entries, in entry order |
| AzureDns.ClearRecord | CertOps/Services/AzureDnsService.cs:56-79 | the call throws exactly when the lookup fails with a status other than 404, or the delete does; every other path returns true; only the relative name can disappear; a delivered clear removes it |
| AzureDns.StartingRecordSet | CertOps/Services/AzureDnsService.cs:95-111 | merge-add starts from the existing set, or from an empty set with TTL 60 on a 404 |
| AzureDns.NewEntries | CertOps/Services/AzureDnsService.cs:113-124 | the new entries hold one value each, none already present, and flatten to the incoming values filtered against the existing ones, in order |
| AzureDns.MergeValues | CertOps/Services/AzureDnsService.cs:113-124 | existing entries and TTL are kept as a prefix; the values become the existing values followed by the new incoming ones; a value is present exactly when it was present before or is incoming |
| AzureDns.AddRecords | CertOps/Services/AzureDnsService.cs:91-136 | the call throws exactly when the lookup fails with a status other than 404; a failed write returns false and leaves the zone unchanged; a delivered write stores the merged set under the relative name |
| AzureDns.AddKeepsExistingAndUnions | CertOps/Services/AzureDnsService.cs:100-128 | after a delivered merge-add, the old entries are kept in order, the values are the union of old and incoming, and other names are untouched |
| AzureDns.AddToMissingName | CertOps/Services/AzureDnsService.cs:95-124 | on a missing name the new set has TTL 60 and one entry per incoming value, duplicates included |
| AzureDns.DuplicateIncomingValuesKept | CertOps/Services/AzureDnsService.cs:114-123 | the set of existing values is not updated while scanning, so a repeated incoming value gets two entries |
| AzureDns.ClearIdempotent | CertOps/Services/AzureDnsService.cs:56-79 | a second clear also returns true and changes nothing |
| AzureDns.ClearThenAddLeavesOnlyNewValues | CertOps/Handler/ScheduleHandler.cs:67-69 | after a clear followed by a merge-add, the name holds exactly the new values, whatever it held before |
| AzureDns.AddThenClearReadsEmpty | CertOps/Services/AzureDnsService.cs:56-79 | after a clear the name reads as empty |
| LegacyDns.Clear | Services/AzureDnsService.cs:55-74 | a 404 returns true with nothing deleted; otherwise the set is deleted and the result is whether the delete succeeded; a lookup failure throws |
| LegacyDns.ClearRemovesName | Services/AzureDnsService.cs:55-74 | a delivered clear removes the name and returns true; a lookup afterwards finds nothing, and a second clear returns true and changes nothing |
| LegacyDns.RemoveFromEntry | Services/AzureDnsService.cs:95 | the filtered entry is a subsequence of the entry holding every other value with its multiplicity and no copy of the removed one; an entry without the value is unchanged |
| LegacyDns.FilterEntries | Services/AzureDnsService.cs:91-106 | the filtered list never has more entries than before, and every entry in it is non-empty |
| LegacyDns.FilterEntriesDropsOnlyEmptied | Services/AzureDnsService.cs:91-106 | the surviving entries are, in their old order, every entry without the removed value except those left empty: no entry is merged, split or reordered |
| LegacyDns.FilterEntriesValues | Services/AzureDnsService.cs:89-106 | the surviving values are the old values without the removed one, in order |
| LegacyDns.FilterEntriesCount | Services/AzureDnsService.cs:93-111 | the entry count is unchanged if and only if no entry was emptied, and then each entry only lost the value |
| LegacyDns.Remove | Services/AzureDnsService.cs:75-122 | a 404 returns true untouched; a write happens only when the entry count dropped, and it stores the survivors without a TTL |
| LegacyDns.RemovePersistedDropsValue | Services/AzureDnsService.cs:89-121 | when the count dropped, the name keeps every other value in order and loses the removed one |
| LegacyDns.MultiValueRemovalNotPersisted | Services/AzureDnsService.cs:97-111 | removing one value from a two-value entry writes nothing, yet returns true with the value still published |
| LegacyDns.RemoveIntended | Services/AzureDnsService.cs:75-122 | the corrected remove: a failed lookup throws; nothing changes when the name or the value is absent; when the value is present, a delivered write stores the filtered entries without a TTL and a failed one returns false with nothing changed |
| LegacyDns.RemoveIntendedDropsValue | Services/AzureDnsService.cs:75-122 | after a delivered corrected remove, the name keeps every other value in order and loses the removed one, and no other name changes |
| LegacyDns.Add | Services/AzureDnsService.cs:123-149 | the call throws exactly when the lookup does not find a set (a missing name gives a null dereference); otherwise one single-value entry is appended, with no duplicate check |
| LegacyDns.AddDoesNotDeduplicate | Services/AzureDnsService.cs:129-146 | adding the same value twice keeps two entries |
| LegacyDns.AddIntended | Services/AzureDnsService.cs:133-148 | the corrected add: a failed lookup other than a 404 throws; a failed write returns false with nothing changed; a delivered write keeps a found set's TTL and entries and appends the value as one entry, or gives a missing name a new TTL-60 set holding just the value; no other name changes |
| LegacyDns.AddToMissingNameThrows | Services/AzureDnsService.cs:125-144 | the single add on a missing name throws, where the corrected add creates a TTL-60 set holding just the value |
| Expiry.CertificatePath | CertOps/Services/AcmeService.cs:89-91 | the scan reads `<root>/<trimmed domain>/fullchain.pem` |
| Expiry.Inspect | CertOps/Services/AcmeService.cs:89-99 | a missing file reads as no certificate; a certificate reads as its not-after time; any other content does not parse |
| Expiry.FirstUnreadable | CertOps/Services/AcmeService.cs:87-99 | every domain before the returned position has a readable file, and the one at it does not |
| Expiry.GetExpiringDomains | CertOps/Services/AcmeService.cs:82-106 | the loop returns the selected domains in configured order, or the exception of the first unreadable file |
| Expiry.ScanThrowsIffUnreadable | CertOps/Services/AcmeService.cs:99 | the scan throws if and only if some configured file does not parse, and the exception names the first such domain |
| Expiry.ExpiringSelectionShape | CertOps/Services/AcmeService.cs:84-105 | the selection is a subsequence of the configuration, holds exactly the domains needing renewal, and keeps their multiplicity |
| Expiry.MissingCertificateAlwaysSelected | CertOps/Services/AcmeService.cs:92-96 | a configured domain without a file is always selected |
| Expiry.SelectedIffLessThanThirtyDaysLeft | CertOps/Services/AcmeService.cs:99-103 | a readable domain is selected if and only if strictly less than 30 days are left |
| Expiry.ExactlyThirtyDaysIsNotDue | CertOps/Services/AcmeService.cs:100 | the comparison is strict: exactly 30 days left is not due, one tick less is |
| Expiry.WildcardCertificatePath | CertOps/Services/AcmeService.cs:89-91 | the wildcard's certificate is read from its base domain's folder |
| LegacyAcme.FirstMissingOrder | Services/AcmeService.cs:26-29 | every domain before the returned position has an order, and the one at it does not |
| LegacyAcme.GetExpiringDomainsLegacy | Services/AcmeService.cs:22-43 | the loop selects each domain whose order is Valid and expires within 30 days, or throws on the first failed lookup |
| LegacyAcme.NonValidOrderNeverSelected | Services/AcmeService.cs:31-34 | a domain whose order is not Valid is never selected |
| LegacyAcme.ValidOrderSelectedIff | Services/AcmeService.cs:36-40 | a domain with a Valid order is selected if and only if its expiry is present and less than 30 days away |
| LegacyAcme.LegacyScanThrowsIffLookupFails | Services/AcmeService.cs:28-29 | the scan throws if and only if some lookup fails, naming the first one |
| LegacyAcme.LegacySelectionIsSublist | Services/AcmeService.cs:24-42 | the selection keeps the configured order |
| LegacyAcme.LegacyChallengeMap | Services/AcmeService.cs:50-59 | every authorization's record name is a key, every key comes from an authorization, and the last authorization's value is stored |
| LegacyAcme.LegacyChallengeMapSize | Services/AcmeService.cs:50-59 | the map has no more entries than there are authorizations |
| LegacyAcme.LastWriterWins | Services/AcmeService.cs:57 | a name holds the value of the last authorization under it |
| LegacyAcme.SameHostCollapses | Services/AcmeService.cs:55-57 | authorizations that share one host collapse into a single entry |
| Challenges.Place | CertOps/Services/AcmeService.cs:130-136 | placing a challenge adds at most one group, keeps the existing names in order, and adds its name to the set of names |
| Challenges.GroupByRecordName | CertOps/Services/AcmeService.cs:121-137 | the grouping has at most one group per authorization, and at least one group when there is any authorization |
| Challenges.PlaceKeepsInvariants | CertOps/Services/AcmeService.cs:130-136 | placing keeps names distinct and groups non-empty |
| Challenges.PlaceAppendsUnderName | CertOps/Services/AcmeService.cs:136 | placing appends the challenge under its own name and nowhere else |
| Challenges.PlaceAddsOne | CertOps/Services/AcmeService.cs:130-136 | placing adds exactly one challenge in total |
| Challenges.GroupsWellFormed | CertOps/Services/AcmeService.cs:121-137 | the grouping has distinct record names and no empty group |
| Challenges.GroupsMatchReference | CertOps/Services/AcmeService.cs:123-137 | looking up a name gives the challenges of the authorizations with that name, in order |
| Challenges.GroupContents | CertOps/Services/AcmeService.cs:123-137 | each group holds exactly the challenges of the authorizations with its name, in order |
| Challenges.DistinctNamesPairwise | CertOps/Services/AcmeService.cs:130-134 | no two groups share a record name |
| Challenges.GroupNamesAreRecordNames | CertOps/Services/AcmeService.cs:128-134 | the group names are exactly the authorizations' record names |
| Challenges.GroupExistsIffAuthorization | CertOps/Services/AcmeService.cs:128-134 | there is a group for a record name if and only if some authorization has that record name |
| Challenges.GroupSizesSumToAuthorizations | CertOps/Services/AcmeService.cs:123-137 | the group sizes add up to the number of authorizations |
| Challenges.ApexAndWildcardShareGroup | CertOps/Services/AcmeService.cs:123-137 | an apex and its wildcard form one group holding both challenges, in order |
| Challenges.TxtValues | CertOps/Handler/ScheduleHandler.cs:62-66 | one TXT value per challenge, in challenge order |
| Poll.RunAttempt | CertOps/Handler/ScheduleHandler.cs:73-93 | the two loops of one attempt are broken by any failed call, accepted when every status is present and not Invalid, and rejected otherwise |
| Poll.PollFrom | CertOps/Handler/ScheduleHandler.cs:70-100 | at most 10 attempts; a timed-out poll waited after every attempt; any other poll waited after every attempt but the last |
| Poll.PollTimesOutIff | CertOps/Handler/ScheduleHandler.cs:71-100 | the poll times out if and only if every remaining attempt is rejected |
| Poll.PollStopsAtDecidingAttempt | CertOps/Handler/ScheduleHandler.cs:71-100 | a poll that does not time out was rejected on every attempt before the one that decided it, and that attempt passed or threw as the verdict says |
| Poll.PollFromShape | CertOps/Handler/ScheduleHandler.cs:71-100 | the poll times out if and only if every attempt is rejected; otherwise every earlier attempt was rejected and the last one decides |
| Poll.PollSkip | CertOps/Handler/ScheduleHandler.cs:71-99 | starting after rejected attempts only shifts the counts |
| Poll.PollChallenges | CertOps/Handler/ScheduleHandler.cs:70-100 | the loop computes the reference poll |
| Poll.PollPassesIff | CertOps/Handler/ScheduleHandler.cs:71-100 | the poll passes if and only if some attempt is accepted and every earlier attempt was rejected |
| Poll.PendingPasses | CertOps/Handler/ScheduleHandler.cs:88 | all challenges Pending pass on the first attempt |
| Poll.IntendedAttempt | CertOps/Handler/ScheduleHandler.cs:86-93 | the corrected attempt accepts if and only if every challenge is Valid |
| Poll.IntendedPollFrom | CertOps/Handler/ScheduleHandler.cs:70-100 | a corrected pass comes from an accepted attempt; a refusal comes from an Invalid challenge |
| Poll.IntendedPassMeansAllValid | CertOps/Handler/ScheduleHandler.cs:86-93 | in the corrected poll, a pass means every challenge was seen Valid |
| Poll.IntendedPendingWaits | CertOps/Handler/ScheduleHandler.cs:88 | the corrected poll rejects an all-Pending attempt and always waits at least once |
| Issuance.IssueCertificate | CertOps/Services/AcmeService.cs:40-80 | the CSR's common name is the domain; issuance succeeds exactly when generation and both writes succeed; the files go to the untrimmed folder and both hold the certificate; a failed second write leaves the first file written |
| Issuance.Save | CertOps/Services/AcmeService.cs:56-78 | the save succeeds exactly when both writes do; the first failed write throws naming its file; a failed first write changes nothing; `fullchain.pem` holds the certificate once written, and `privkey.pem` the given blob |
| Issuance.SaveTouchesOnlyItsFiles | CertOps/Services/AcmeService.cs:56-78 | saving deletes no file and changes none but the two in the folder |
| Issuance.PrivateKeyFileHoldsCertificate | CertOps/Services/AcmeService.cs:66-72 | after a successful issuance, the key file holds the certificate, not the key |
| Issuance.WildcardIssueNotSeenByScan | CertOps/Services/AcmeService.cs:55 | after issuing `*.example.com` into a store whose folder `<root>/*.example.com` already holds an earlier certificate and whose folder `<root>/example.com` is empty, the scan still selects it |
| Issuance.IssueCertificateIntended | CertOps/Services/AcmeService.cs:40-80 | the corrected issuance writes the certificate and the key into the folder the scan reads |
| Issuance.IssuedCertificateIsRead | CertOps/Services/AcmeService.cs:55-72 | after a corrected issuance with 30 or more days left, the scan reads the new certificate and does not select the domain |
| Cycle.PublishLeavesOnlyNewValues | CertOps/Handler/ScheduleHandler.cs:67-69 | with every DNS call delivered, the record name holds exactly the group's values before the poll starts |
| Cycle.Publish | CertOps/Handler/ScheduleHandler.cs:67-69 | every exception publishing lets through is a failed DNS request, and with every DNS call delivered there is none |
| Cycle.PublishTouchesOnlyItsName | CertOps/Handler/ScheduleHandler.cs:67-69 | publishing, whether it goes through or fails half-way, changes the zone only under the group's relative record name |
| Cycle.ProcessGroup | CertOps/Handler/ScheduleHandler.cs:59-112 | the zone is what publishing left; the store changes only by the issuance after a passing poll; the group lets an exception through if and only if publishing threw, a challenge call failed during the poll, or the issuance threw, and it is that exception; otherwise it reports its values, the reference poll, and whether it issued, which is exactly when the poll passed |
| Cycle.DeliveredGroupReadsBack | CertOps/Handler/ScheduleHandler.cs:67-69 | with every DNS call of a group delivered, the zone the group leaves reads back exactly its values under its relative name, even when its poll or issuance then failed |
| Cycle.RunFrom | CertOps/Handler/ScheduleHandler.cs:57-113 | the groups run in order, each on the world the one before left, each keeping the group promise; a group that lets an exception through is the last |
| Cycle.RunEnds | CertOps/Handler/ScheduleHandler.cs:57-113 | the run stops before the last group only at a group that let an exception through |
| Cycle.ProcessGroups | CertOps/Handler/ScheduleHandler.cs:57-113 | the groups run as above; the exception of the last group, if any, ends the run; the world afterwards is what the last group left; the reports are those of the groups that ran to the end; one certificate for the first expiring domain per group that issued |
| Cycle.FittingRunReports | CertOps/Handler/ScheduleHandler.cs:57-113 | each report of a run is that of its group: its values, the reference poll, issued exactly when the poll passed |
| Cycle.TwoPassingGroupsIssueTwice | CertOps/Handler/ScheduleHandler.cs:102-108 | an order with two passing groups issues two certificates for the same name |
| Cycle.HandleExpiringDomains | CertOps/Handler/ScheduleHandler.cs:38-119 | a failed scan or order ends the cycle as Fatal with nothing changed; an empty scan does no work; otherwise every expiring domain is ordered, the groups run as above, the cycle ends as Fatal with the exception that stopped them or as Finished, and on the world the last group left |
| Cycle.CycleGroupEffects | CertOps/Handler/ScheduleHandler.cs:57-113 | group `i` of a cycle changed the store only by issuing for the first expiring domain; with its DNS calls delivered it left exactly its values readable under its relative name |
| Cycle.PollGroupIntended | CertOps/Handler/ScheduleHandler.cs:59-100 | the corrected group leaves the zone as publishing left it and the store untouched; it fails if and only if publishing threw or a challenge call failed, with that exception; otherwise it reports its values and the corrected poll, and never issues |
| Cycle.RunKeepsDisk | CertOps/Handler/ScheduleHandler.cs:57-113 | a run whose every group leaves the certificate store as it found it leaves the store as it was |
| Cycle.RunStepsSatisfy | CertOps/Handler/ScheduleHandler.cs:57-113 | what every group keeping its promise satisfies holds of every group of a run |
| Cycle.IntendedPromiseKeepsDisk | CertOps/Handler/ScheduleHandler.cs:59-100 | a corrected group never touches the certificate store |
| Cycle.IntendedPromiseReports | CertOps/Handler/ScheduleHandler.cs:59-100 | a corrected group that ran to the end reports its own record name and the corrected poll |
| Cycle.IntendedRunKeepsDisk | CertOps/Handler/ScheduleHandler.cs:57-100 | a corrected run leaves the certificate store as it was |
| Cycle.IntendedRunReports | CertOps/Handler/ScheduleHandler.cs:57-100 | the reports of a corrected run are those of its groups, in order, with the corrected poll; all groups report unless an exception stopped the run |
| Cycle.RunIntendedFrom | CertOps/Handler/ScheduleHandler.cs:57-100 | the corrected groups run in order, each on the world the one before left, each keeping the corrected group promise; a group that lets an exception through is the last |
| Cycle.PollGroupsIntended | CertOps/Handler/ScheduleHandler.cs:57-100 | the corrected groups run as above; the run stops early only at an exception, and that exception ends it; the world afterwards is what the last group left; the reports are those of the groups that ran to the end, each with its record name and the corrected poll; nothing is issued and the store is untouched |
| Cycle.IntendedCycleIssuesOnce | CertOps/Handler/ScheduleHandler.cs:38-119 | a corrected cycle issues if and only if it finished, reached its order and every group passed, and then it issues exactly one certificate, for the first domain the scan selected |
| Cycle.HandleExpiringDomainsIntended | CertOps/Handler/ScheduleHandler.cs:38-119 | the corrected cycle scans, stops and orders as written (Fatal on a failed scan or order, no work on an empty scan, every expiring domain ordered); then the corrected groups run as above; afterwards it issues once, for the first expiring domain, into the folder the scan reads, exactly when no exception stopped the groups and every group passed; it ends as Fatal with the exception of the groups or of that issuance, otherwise as Finished; the store changes only through that one issuance |
| Cycle.CyclesKeepSnoc | CertOps/Handler/ScheduleHandler.cs:29-36 | appending a cycle that kept its promise on the world the last one left keeps the whole run fitting |
| Cycle.KeptAt | CertOps/Handler/ScheduleHandler.cs:29-36 | every cycle of a fitting run kept its promise on the world the cycle before it left |
| Cycle.CycleKeptPromise | CertOps/Handler/ScheduleHandler.cs:29-36 | each cycle kept its promise on the world the previous one left |
| Cycle.Start | CertOps/Handler/ScheduleHandler.cs:29-36 | the scheduler runs one cycle per plan, each on the world the previous cycle left, whatever status that one ended with |

## Left out

- Azure SDK plumbing is not modelled. This covers the credential, the ARM client, the zone identifier, `HasData`, and the difference between a
  404 response and a 404 exception. Each call is reduced to a `Reply`.
- Certes is not modelled: account key handling, CSR construction, key
  generation, the PEM encoding and `DnsTxt`. These are foreign calls; the
  digest is a parameter.
- `InitAcmeContext` (CertOps/Services/AcmeService.cs:21-39) is left out. It is account key file I/O and account registration against the ACME
  server.
- File I/O details are left out. The store is a map from path to content, so
  the following are not modelled:
  - `FileMode.OpenOrCreate` without truncation, where a shorter new file keeps
    the tail of the old one;
  - whether the per-domain folder exists before the write;
  - directory creation. The code creates only the root folder
    (CertOps/Services/AcmeService.cs:51-54) and never `<root>/<domain>`, so
    on a real file system a domain's first issuance fails unless that folder
    already exists. Here that failure is one more way for the oracle to
    refuse a write.
- The coroutine scheduler, the cancellation token and the delays are time,
  not logic. The 1000 ms retry delay appears only as a count of waits, and
  the endless loop is cut off after the planned cycles.
- Logging is left out.
- Program.cs and the older Handler/ScheduleHandler.cs are left out. They are
  wiring and a stub; Handler/ScheduleHandler.cs is not part of this model.
- Expiry.GetExpiringDomains: the certificate's local-time `NotAfter` minus
  `UtcNow` is modelled as one tick count. The local-time zone offset is not
  modelled, because the clock is a parameter.
- Expiry.GetExpiringDomains: `UtcNow` is read once per domain
  (CertOps/Services/AcmeService.cs:100). The model reads one `now` for the
  whole scan.
- Naming.RelativeRecordName: the case-insensitive suffix test folds only the
  ASCII letters `a` to `z`, where `OrdinalIgnoreCase` also folds other
  letters. DNS names are ASCII, or punycode for international names, so the
  two agree on them.
- Challenges.GroupByRecordName: enumerating the `Dictionary` of groups
  (CertOps/Services/AcmeService.cs:121, CertOps/Handler/ScheduleHandler.cs:57)
  is taken to follow insertion order, which .NET does not promise.
- Cycle.HandleExpiringDomains: every authorization is taken to carry a DNS-01
  challenge. A null result of `authorization.Dns()`
  (CertOps/Services/AcmeService.cs:135) is not modelled.
- LegacyAcme.LegacyChallengeMap: it is total. The exceptions of `NewOrder`,
  `Authorizations` and `Dns()` (Services/AcmeService.cs:47-54) are not
  modelled, and neither is a null `Dns()` result, which throws at line 56.
- Poll.RunAttempt: the re-sent `Validate` call is merged with the status read
  into one probe per challenge and attempt. The server's response to a
  repeated validation request is the prober's business.
- Cycle.HandleExpiringDomains: the exception of `GetDns01ChallengesAsync` is
  one `OrderRejected` fault. Failures of the individual authorization calls
  inside it are not told apart.
- Cycle.ProcessGroup: the group's report records what a read of the record
  name returns at poll time. The job itself does not read it back.
- The legacy `GetAzureDnsTxtRecordAsync` (Services/AzureDnsService.cs:34-53)
  is the same read as the current one and is modelled once, as
  `AzureDns.ReadRecord`.

## Findings

| source | as written | input that shows it | evidently intended | confidence | as-written member | corrected member |
|---|---|---|---|---|---|---|
| CertOps/Services/AcmeService.cs:66-72 | `privkey.pem` is written with `certPem` | any successful issuance | write `keyPem` to `privkey.pem` | high, not executed | Issuance.PrivateKeyFileHoldsCertificate | Issuance.IssuedCertificateIsRead |
| CertOps/Services/AcmeService.cs:55 | issued files go to `<root>/<domain>` with the domain verbatim | domain `*.example.com`, with the folder `<root>/*.example.com` already present (it holds an earlier certificate) and `<root>/example.com` empty: the scan still selects it after issuance | use the trimmed folder the scan reads (line 89) | high, not executed | Issuance.WildcardIssueNotSeenByScan | Issuance.IssuedCertificateIsRead |
| CertOps/Handler/ScheduleHandler.cs:102-108 | issuance happens inside the per-group loop, once per passing group | two record-name groups that both pass issue twice | issue once, after every group passed | medium, not executed | Cycle.TwoPassingGroupsIssueTwice | Cycle.HandleExpiringDomainsIntended |
| CertOps/Handler/ScheduleHandler.cs:88 | only an absent or Invalid status fails the check, so Pending passes | every challenge Pending on the first attempt | pass only when every challenge is Valid | medium, not executed | Poll.PendingPasses | Poll.IntendedPassMeansAllValid |
| Services/AzureDnsService.cs:108 | a write happens only when the entry count dropped | entry `["a", "b"]`, remove `"a"`: returns true, `"a"` still published | write whenever a value was removed | high, not executed | LegacyDns.MultiValueRemovalNotPersisted | LegacyDns.RemoveIntendedDropsValue |
| Services/AzureDnsService.cs:127-146 | `recordSetResponse.Value` is used even when no set exists | single add on a name with no record set | create a TTL-60 set as lines 139-142 intend | medium, not executed | LegacyDns.AddToMissingNameThrows | LegacyDns.AddIntended |

=== FILE: azure_dns.dfy ===
/** The DNS service the current scheduler uses: read, clear and merge-add of
    the TXT record set under one record name. Clear and merge-add first make
    the name relative to the zone; read uses the name as given.
 */
module AzureDns {
  import opened Outcomes
  import opened TxtZone
  import Seqs
  import Naming

  /** Reading a record set: every value of every entry in entry order, and
      an empty list when the provider answers 404; any other failed lookup
      throws. */
  function ReadRecord(zone: Zone, recordName: string, lookup: Reply): (r: Result<seq<string>>)
    ensures r.Thrown? <==> Fetch(zone, recordName, lookup).LookupFailed?
    ensures r.Thrown? ==> r.fault == RequestFailed(Fetch(zone, recordName, lookup).status)
    ensures Fetch(zone, recordName, lookup).Found? ==> r == Done(Values(zone[recordName]))
    ensures r.Done? && Fetch(zone, recordName, lookup).Missing? ==> r.value == []
    ensures r.Done? ==> forall v :: v in r.value <==>
              (lookup == Delivered && recordName in zone
               && exists i :: 0 <= i < |zone[recordName].entries| && v in zone[recordName].entries[i])
  {
    match Fetch(zone, recordName, lookup)
    case LookupFailed(status) => Thrown(RequestFailed(status))
    case Missing => Done([])
    case Found(recordSet) =>
      Seqs.FlattenMembership(recordSet.entries);
      Done(Values(recordSet))
  }

  /** Clearing a record name: the whole record set is deleted; a 404, on the
      lookup or on the delete, is success. Every path that does not throw
      returns true. */
  function ClearRecord(zone: Zone, zoneName: string, recordName: string, lookup: Reply, delete: Reply)
    : (r: DnsResult<bool>)
    ensures var rel := Naming.RelativeRecordName(recordName, zoneName);
            && (r.Raised? <==> (Fetch(zone, rel, lookup).LookupFailed?
                                || (Fetch(zone, rel, lookup).Found? && delete.Failed? && delete.status != NotFound)))
            && (r.Answer? ==> r.value)
            && (r.Answer? ==> r.zone.Keys <= zone.Keys
                              && forall n :: n in zone && n != rel ==> n in r.zone && r.zone[n] == zone[n])
            && (lookup == Delivered && delete == Delivered ==> r.Answer? && rel !in r.zone)
  {
    var rel := Naming.RelativeRecordName(recordName, zoneName);
    match Fetch(zone, rel, lookup)
    case LookupFailed(status) => Raised(RequestFailed(status))
    case Missing => Answer(true, zone)
    case Found(_) =>
      match delete
      case Delivered => Answer(true, zone - {rel})
      case Failed(status) => if status == NotFound then Answer(true, zone) else Raised(RequestFailed(status))
  }

  /** The record set merge-add starts from: the existing one, or a fresh one
      with TTL 60 when the provider answered 404. */
  function StartingRecordSet(lookup: Lookup): (r: TxtRecordSet)
    requires !lookup.LookupFailed?
    ensures lookup.Found? ==> r == lookup.recordSet
    ensures lookup.Missing? ==> r.ttl == Some(DefaultTtlSeconds) && r.entries == []
  {
    if lookup.Found? then lookup.recordSet else TxtRecordSet(Some(DefaultTtlSeconds), [])
  }

  /** One single-value entry for each incoming value not in `existing`, in
      input order; the set is not updated while scanning, so a repeated
      incoming value gets one entry per occurrence. */
  function NewEntries(values: seq<string>, existing: set<string>): (r: seq<seq<string>>)
    ensures forall i :: 0 <= i < |r| ==> |r[i]| == 1 && r[i][0] !in existing
    ensures Seqs.Flatten(r) == Seqs.Filter(values, v => v !in existing)
  {
    if |values| == 0 then []
    else
      var init, last := values[..|values| - 1], values[|values| - 1];
      var head := NewEntries(init, existing);
      var tail: seq<seq<string>> := if last !in existing then [[last]] else [];
      Seqs.FlattenAppend(head, tail);
      assert init + [last] == values;
      Seqs.FilterSnoc(init, last, v => v !in existing);
      head + tail
  }

  /** Merging incoming values into an existing record set. */
  function MergeValues(existing: TxtRecordSet, values: seq<string>): (r: TxtRecordSet)
    ensures r.ttl == existing.ttl
    ensures |r.entries| >= |existing.entries| && r.entries[..|existing.entries|] == existing.entries
    ensures forall i :: |existing.entries| <= i < |r.entries| ==> |r.entries[i]| == 1
    ensures Values(r) == Values(existing) + Seqs.Filter(values, v => v !in Values(existing))
    ensures forall v :: v in Values(r) <==> v in Values(existing) || v in values
  {
    var known := set v | v in Values(existing);
    var added := NewEntries(values, known);
    Seqs.FlattenAppend(existing.entries, added);
    Seqs.FilterMembership(values, v => v !in known);
    assert Seqs.Filter(values, v => v !in known) == Seqs.Filter(values, v => v !in Values(existing)) by {
      FilterSameTest(values, v => v !in known, v => v !in Values(existing));
    }
    existing.(entries := existing.entries + added)
  }

  lemma {:induction false} FilterSameTest(s: seq<string>, p: string -> bool, q: string -> bool)
    requires forall x :: p(x) == q(x)
    ensures Seqs.Filter(s, p) == Seqs.Filter(s, q)
    decreases |s|
  {
    if |s| > 0 {
      FilterSameTest(s[..|s| - 1], p, q);
    }
  }

  /** Merge-add: read the record set (404 starts from an empty one with TTL
      60, any other read failure propagates), append the new values, and
      write the whole set back. A failed write is caught and returns false. */
  function AddRecords(zone: Zone, zoneName: string, recordName: string, values: seq<string>,
                      lookup: Reply, write: Reply): (r: DnsResult<bool>)
    ensures var rel := Naming.RelativeRecordName(recordName, zoneName);
            var found := Fetch(zone, rel, lookup);
            && (r.Raised? <==> found.LookupFailed?)
            && (r.Answer? ==> (r.value <==> write == Delivered))
            && (r.Answer? && write.Failed? ==> r.zone == zone)
            && (r.Answer? && write == Delivered ==>
                  r.zone == zone[rel := MergeValues(StartingRecordSet(found), values)])
  {
    var rel := Naming.RelativeRecordName(recordName, zoneName);
    var found := Fetch(zone, rel, lookup);
    if found.LookupFailed? then Raised(RequestFailed(found.status))
    else
      var merged := MergeValues(StartingRecordSet(found), values);
      match write
      case Delivered => Answer(true, zone[rel := merged])
      case Failed(_) => Answer(false, zone)
  }

  // ---------------------------------------------------------------------------
  // Properties

  /** After a merge-add that wrote, every pre-existing entry is still there,
      unchanged and in order, and the value set is existing ∪ incoming. */
  lemma AddKeepsExistingAndUnions(zone: Zone, zoneName: string, recordName: string,
                                  values: seq<string>, lookup: Reply)
    requires var rel := Naming.RelativeRecordName(recordName, zoneName);
             lookup == Delivered && rel in zone
    ensures var rel := Naming.RelativeRecordName(recordName, zoneName);
            var r := AddRecords(zone, zoneName, recordName, values, lookup, Delivered);
            && r == Answer(true, r.zone) && rel in r.zone
            && r.zone[rel].entries[..|zone[rel].entries|] == zone[rel].entries
            && (forall v :: v in Values(r.zone[rel]) <==> v in Values(zone[rel]) || v in values)
            && (forall n :: n in zone && n != rel ==> n in r.zone && r.zone[n] == zone[n])
  {
  }

  /** A merge-add on a missing name creates a TTL-60 record set holding one
      entry per incoming value, duplicates included. */
  lemma {:induction false} AddToMissingName(zone: Zone, zoneName: string, recordName: string, values: seq<string>)
    requires Naming.RelativeRecordName(recordName, zoneName) !in zone
    ensures var rel := Naming.RelativeRecordName(recordName, zoneName);
            var r := AddRecords(zone, zoneName, recordName, values, Delivered, Delivered);
            && r.Answer? && rel in r.zone
            && r.zone[rel].ttl == Some(DefaultTtlSeconds)
            && |r.zone[rel].entries| == |values|
            && Values(r.zone[rel]) == values
  {
    var rel := Naming.RelativeRecordName(recordName, zoneName);
    var empty := TxtRecordSet(Some(DefaultTtlSeconds), []);
    var merged := MergeValues(empty, values);
    assert Values(empty) == [];
    FilterKeepsAll(values, v => v !in Values(empty));
    assert Values(merged) == values;
    assert |Values(merged)| == |values|;
    SingletonEntriesCount(merged.entries);
  }

  lemma {:induction false} FilterKeepsAll(s: seq<string>, p: string -> bool)
    requires forall x :: p(x)
    ensures Seqs.Filter(s, p) == s
    decreases |s|
  {
    if |s| > 0 {
      var init, last := s[..|s| - 1], s[|s| - 1];
      FilterKeepsAll(init, p);
      assert Seqs.Filter(s, p) == Seqs.Filter(init, p) + [last];
      assert init + [last] == s;
    }
  }

  /** Entries of one value each flatten to as many values as there are entries. */
  lemma {:induction false} SingletonEntriesCount(entries: seq<seq<string>>)
    requires forall i :: 0 <= i < |entries| ==> |entries[i]| == 1
    ensures |Seqs.Flatten(entries)| == |entries|
    decreases |entries|
  {
    if |entries| > 0 {
      SingletonEntriesCount(entries[..|entries| - 1]);
    }
  }

  /** A repeated incoming value is not collapsed: the set of existing values
      is not updated while the incoming list is scanned. */
  lemma DuplicateIncomingValuesKept()
    ensures NewEntries(["v", "v"], {}) == [["v"], ["v"]]
  {
    var none: set<string> := {};
    assert ["v", "v"][..1] == ["v"];
    assert ["v"][..0] == [];
    assert NewEntries([], none) == [];
    assert NewEntries(["v"], none) == [["v"]];
  }

  /** Clearing twice in a row returns true both times and leaves the name absent. */
  lemma ClearIdempotent(zone: Zone, zoneName: string, recordName: string)
    ensures var rel := Naming.RelativeRecordName(recordName, zoneName);
            var first := ClearRecord(zone, zoneName, recordName, Delivered, Delivered);
            var second := ClearRecord(first.zone, zoneName, recordName, Delivered, Delivered);
            && first.Answer? && first.value && rel !in first.zone
            && second == Answer(true, first.zone)
  {
  }

  /** Clear-then-publish discipline: whatever the name held before, after a
      clear and a merge-add the name holds exactly the new values, in order. */
  lemma {:induction false} ClearThenAddLeavesOnlyNewValues(zone: Zone, zoneName: string, recordName: string,
                                                           values: seq<string>)
    ensures var rel := Naming.RelativeRecordName(recordName, zoneName);
            var cleared := ClearRecord(zone, zoneName, recordName, Delivered, Delivered);
            var added := AddRecords(cleared.zone, zoneName, recordName, values, Delivered, Delivered);
            && added.Answer?
            && ReadRecord(added.zone, rel, Delivered) == Done(values)
  {
    var rel := Naming.RelativeRecordName(recordName, zoneName);
    var cleared := ClearRecord(zone, zoneName, recordName, Delivered, Delivered);
    AddToMissingName(cleared.zone, zoneName, recordName, values);
  }

  /** Publish, clear, read: the name reads as empty afterwards. */
  lemma AddThenClearReadsEmpty(zone: Zone, zoneName: string, recordName: string, values: seq<string>)
    ensures var rel := Naming.RelativeRecordName(recordName, zoneName);
            var added := AddRecords(zone, zoneName, recordName, values, Delivered, Delivered);
            var cleared := ClearRecord(added.zone, zoneName, recordName, Delivered, Delivered);
            added.Answer? && ReadRecord(cleared.zone, rel, Delivered) == Done([])
  {
  }
}

=== FILE: cert_store.dfy ===
/** The certificate store on disk as the job sees it: files addressed by
    `<root>/<folder>/<file>`, each holding a certificate (with its not-after
    time), a private key, or something that does not parse as either.
    Time is a count of .NET ticks (100 ns).
 */
module CertStore {

  const CertificateFile: string := "fullchain.pem"
  const PrivateKeyFile: string := "privkey.pem"

  const TicksPerDay: int := 864_000_000_000

  /** A certificate is due for renewal when less than this is left. */
  const RenewalWindow: int := 30 * TicksPerDay

  /** `Path.Combine(root, folder, file)`. */
  datatype FilePath = FilePath(root: string, folder: string, file: string)

  /** What a file holds. */
  datatype Blob = CertificatePem(notAfter: int) | PrivateKeyPem | Unparsable

  type Disk = map<FilePath, Blob>
}

=== FILE: challenges.dfy ===
/** Grouping of one order's DNS-01 challenges by record name. Each
    authorization contributes its DNS challenge to the group of the record
    name derived from its identifier; an apex and its wildcard land in the
    same group. The groups come out in the order their names first appear.
 */
module Challenges {
  import Naming

  /** A DNS challenge; only its token matters here. */
  datatype Challenge = Challenge(token: string)

  /** An authorization: the identifier it is for and its DNS challenge. */
  datatype Authorization = Authorization(identifier: string, challenge: Challenge)

  /** The challenges published under one record name. */
  datatype ChallengeGroup = ChallengeGroup(recordName: string, challenges: seq<Challenge>)

  function RecordNameOf(auth: Authorization): string {
    Naming.ChallengeRecordName(auth.identifier)
  }

  /** The record names of the groups. */
  function Names(groups: seq<ChallengeGroup>): set<string>
    decreases |groups|
  {
    if |groups| == 0 then {} else {groups[0].recordName} + Names(groups[1..])
  }

  /** No record name appears twice. */
  predicate DistinctNames(groups: seq<ChallengeGroup>)
    decreases |groups|
  {
    |groups| == 0 || (groups[0].recordName !in Names(groups[1..]) && DistinctNames(groups[1..]))
  }

  /** Every group holds at least one challenge. */
  predicate NonEmptyGroups(groups: seq<ChallengeGroup>) {
    forall i :: 0 <= i < |groups| ==> |groups[i].challenges| > 0
  }

  /** The challenges of the group named `name`, or none when there is none. */
  function ChallengesOf(groups: seq<ChallengeGroup>, name: string): seq<Challenge>
    decreases |groups|
  {
    if |groups| == 0 then []
    else if groups[0].recordName == name then groups[0].challenges
    else ChallengesOf(groups[1..], name)
  }

  /** Reference: the challenges of the authorizations whose record name is
      `name`, in authorization order. */
  function ChallengesUnder(auths: seq<Authorization>, name: string): seq<Challenge>
    decreases |auths|
  {
    if |auths| == 0 then []
    else
      var last := auths[|auths| - 1];
      ChallengesUnder(auths[..|auths| - 1], name) + (if RecordNameOf(last) == name then [last.challenge] else [])
  }

  /** Adding one challenge under `name`: appended to that group when it
      exists, otherwise a new group at the end. */
  function Place(groups: seq<ChallengeGroup>, name: string, c: Challenge): (r: seq<ChallengeGroup>)
    ensures |r| == |groups| || |r| == |groups| + 1
    ensures forall i :: 0 <= i < |groups| ==> r[i].recordName == groups[i].recordName
    ensures Names(r) == Names(groups) + {name}
    decreases |groups|
  {
    if |groups| == 0 then
      var r := [ChallengeGroup(name, [c])];
      assert r[1..] == [];
      r
    else if groups[0].recordName == name then
      var r := [groups[0].(challenges := groups[0].challenges + [c])] + groups[1..];
      assert r[1..] == groups[1..];
      r
    else
      var r := [groups[0]] + Place(groups[1..], name, c);
      assert r[1..] == Place(groups[1..], name, c);
      r
  }

  /** Bucketing the authorizations by record name, in authorization order:
      at most one group per authorization, and at least one group when there
      is any authorization. */
  function GroupByRecordName(auths: seq<Authorization>): (groups: seq<ChallengeGroup>)
    ensures |groups| <= |auths|
    ensures |auths| > 0 ==> |groups| > 0
    decreases |auths|
  {
    if |auths| == 0 then []
    else
      var last := auths[|auths| - 1];
      Place(GroupByRecordName(auths[..|auths| - 1]), RecordNameOf(last), last.challenge)
  }

  /** The TXT values published for a group, one per challenge in challenge
      order, given the digest of each challenge's key authorization. */
  function TxtValues(group: ChallengeGroup, dnsTxt: Challenge -> string): (values: seq<string>)
    ensures |values| == |group.challenges|
    ensures forall i :: 0 <= i < |values| ==> values[i] == dnsTxt(group.challenges[i])
  {
    seq(|group.challenges|, i requires 0 <= i < |group.challenges| => dnsTxt(group.challenges[i]))
  }

  /** The total number of challenges over all groups. */
  function TotalSize(groups: seq<ChallengeGroup>): nat
    decreases |groups|
  {
    if |groups| == 0 then 0 else |groups[0].challenges| + TotalSize(groups[1..])
  }

  // ---------------------------------------------------------------------------
  // What placing one challenge does

  lemma {:induction false} PlaceKeepsInvariants(groups: seq<ChallengeGroup>, name: string, c: Challenge)
    requires DistinctNames(groups) && NonEmptyGroups(groups)
    ensures DistinctNames(Place(groups, name, c)) && NonEmptyGroups(Place(groups, name, c))
    decreases |groups|
  {
    var r := Place(groups, name, c);
    if |groups| == 0 {
      assert r[1..] == [];
    } else if groups[0].recordName == name {
      assert r[1..] == groups[1..];
      assert forall i :: 1 <= i < |r| ==> r[i] == groups[i];
    } else {
      var rest := groups[1..];
      assert NonEmptyGroups(rest) by {
        assert forall i :: 0 <= i < |rest| ==> rest[i] == groups[i + 1];
      }
      PlaceKeepsInvariants(rest, name, c);
      assert r[1..] == Place(rest, name, c);
      assert forall i :: 1 <= i < |r| ==> r[i] == r[1..][i - 1];
    }
  }

  lemma {:induction false} PlaceAppendsUnderName(groups: seq<ChallengeGroup>, name: string, c: Challenge,
                                                 n: string)
    ensures ChallengesOf(Place(groups, name, c), n)
            == ChallengesOf(groups, n) + (if n == name then [c] else [])
    decreases |groups|
  {
    if |groups| > 0 && groups[0].recordName != name {
      PlaceAppendsUnderName(groups[1..], name, c, n);
      assert Place(groups, name, c)[1..] == Place(groups[1..], name, c);
    } else if |groups| > 0 {
      assert Place(groups, name, c)[1..] == groups[1..];
    }
  }

  lemma {:induction false} PlaceAddsOne(groups: seq<ChallengeGroup>, name: string, c: Challenge)
    ensures TotalSize(Place(groups, name, c)) == TotalSize(groups) + 1
    decreases |groups|
  {
    if |groups| == 0 {
      assert TotalSize([ChallengeGroup(name, [c])]) == 1 + TotalSize([]);
    } else if groups[0].recordName == name {
      assert Place(groups, name, c)[1..] == groups[1..];
    } else {
      PlaceAddsOne(groups[1..], name, c);
      assert Place(groups, name, c)[1..] == Place(groups[1..], name, c);
    }
  }

  // ---------------------------------------------------------------------------
  // Properties of the grouping

  /** Keys are distinct and no group is empty. */
  lemma {:induction false} GroupsWellFormed(auths: seq<Authorization>)
    ensures DistinctNames(GroupByRecordName(auths)) && NonEmptyGroups(GroupByRecordName(auths))
    decreases |auths|
  {
    if |auths| > 0 {
      var last := auths[|auths| - 1];
      GroupsWellFormed(auths[..|auths| - 1]);
      PlaceKeepsInvariants(GroupByRecordName(auths[..|auths| - 1]), RecordNameOf(last), last.challenge);
    }
  }

  /** The group under a record name holds exactly the challenges of the
      authorizations with that record name, in authorization order. */
  lemma {:induction false} GroupsMatchReference(auths: seq<Authorization>, name: string)
    ensures ChallengesOf(GroupByRecordName(auths), name) == ChallengesUnder(auths, name)
    decreases |auths|
  {
    if |auths| > 0 {
      var last := auths[|auths| - 1];
      GroupsMatchReference(auths[..|auths| - 1], name);
      PlaceAppendsUnderName(GroupByRecordName(auths[..|auths| - 1]), RecordNameOf(last), last.challenge, name);
    }
  }

  lemma {:induction false} NameInNames(groups: seq<ChallengeGroup>, i: nat)
    requires i < |groups|
    ensures groups[i].recordName in Names(groups)
    decreases |groups|
  {
    if i > 0 {
      NameInNames(groups[1..], i - 1);
    }
  }

  /** Distinct names, stated pairwise. */
  lemma {:induction false} DistinctNamesPairwise(groups: seq<ChallengeGroup>)
    requires DistinctNames(groups)
    ensures forall i, j :: 0 <= i < j < |groups| ==> groups[i].recordName != groups[j].recordName
    decreases |groups|
  {
    if |groups| > 0 {
      var rest := groups[1..];
      DistinctNamesPairwise(rest);
      forall i, j | 0 <= i < j < |groups| ensures groups[i].recordName != groups[j].recordName {
        NameInNames(rest, j - 1);
        if i > 0 {
          assert groups[i] == rest[i - 1];
        }
      }
    }
  }

  /** In groups with distinct names, looking a group up by its own name
      finds that group. */
  lemma {:induction false} LookupFindsGroup(groups: seq<ChallengeGroup>, i: nat)
    requires DistinctNames(groups) && i < |groups|
    ensures ChallengesOf(groups, groups[i].recordName) == groups[i].challenges
    decreases |groups|
  {
    if i > 0 {
      NameInNames(groups[1..], i - 1);
      LookupFindsGroup(groups[1..], i - 1);
    }
  }

  /** Every group holds exactly the challenges of the authorizations with its
      record name, in authorization order. */
  lemma {:induction false} GroupContents(auths: seq<Authorization>, i: nat)
    requires i < |GroupByRecordName(auths)|
    ensures var g := GroupByRecordName(auths)[i];
            g.challenges == ChallengesUnder(auths, g.recordName)
  {
    var groups := GroupByRecordName(auths);
    GroupsWellFormed(auths);
    LookupFindsGroup(groups, i);
    GroupsMatchReference(auths, groups[i].recordName);
  }

  /** The record names of the authorizations. */
  function RecordNames(auths: seq<Authorization>): set<string>
    decreases |auths|
  {
    if |auths| == 0 then {} else RecordNames(auths[..|auths| - 1]) + {RecordNameOf(auths[|auths| - 1])}
  }

  /** The group names are exactly the record names of the authorizations. */
  lemma {:induction false} GroupNamesAreRecordNames(auths: seq<Authorization>)
    ensures Names(GroupByRecordName(auths)) == RecordNames(auths)
    decreases |auths|
  {
    if |auths| > 0 {
      GroupNamesAreRecordNames(auths[..|auths| - 1]);
    }
  }

  /** A record name is among the authorizations' exactly when some
      authorization has it. */
  lemma {:induction false} RecordNamesMembership(auths: seq<Authorization>, n: string)
    ensures n in RecordNames(auths) <==> exists i :: 0 <= i < |auths| && RecordNameOf(auths[i]) == n
    decreases |auths|
  {
    if |auths| > 0 {
      var init := auths[..|auths| - 1];
      RecordNamesMembership(init, n);
      if n in RecordNames(init) {
        var i :| 0 <= i < |init| && RecordNameOf(init[i]) == n;
        assert auths[i] == init[i];
      }
      if exists i :: 0 <= i < |auths| && RecordNameOf(auths[i]) == n {
        var i :| 0 <= i < |auths| && RecordNameOf(auths[i]) == n;
        if i < |init| {
          assert init[i] == auths[i];
        }
      }
    }
  }

  /** There is a group for a record name exactly when some authorization
      has that record name. */
  lemma {:induction false} GroupExistsIffAuthorization(auths: seq<Authorization>, n: string)
    ensures n in Names(GroupByRecordName(auths)) <==> exists i :: 0 <= i < |auths| && RecordNameOf(auths[i]) == n
  {
    GroupNamesAreRecordNames(auths);
    RecordNamesMembership(auths, n);
  }

  /** Each authorization contributes exactly one challenge to exactly one
      group, so the group sizes add up to the number of authorizations. */
  lemma {:induction false} GroupSizesSumToAuthorizations(auths: seq<Authorization>)
    ensures TotalSize(GroupByRecordName(auths)) == |auths|
    decreases |auths|
  {
    if |auths| > 0 {
      var last := auths[|auths| - 1];
      GroupSizesSumToAuthorizations(auths[..|auths| - 1]);
      PlaceAddsOne(GroupByRecordName(auths[..|auths| - 1]), RecordNameOf(last), last.challenge);
    }
  }

  /** An apex domain and its wildcard are validated through one group. */
  lemma {:induction false} ApexAndWildcardShareGroup(apex: string, c1: Challenge, c2: Challenge)
    ensures GroupByRecordName([Authorization(apex, c1), Authorization("*." + apex, c2)])
            == [ChallengeGroup(Naming.ChallengeRecordName(apex), [c1, c2])]
  {
    Naming.WildcardSharesApexRecordName(apex);
    var a1, a2 := Authorization(apex, c1), Authorization("*." + apex, c2);
    var auths := [a1, a2];
    var name := Naming.ChallengeRecordName(apex);
    assert RecordNameOf(a2) == name;
    assert auths[..1] == [a1];
    assert [a1][..0] == [];
    var first := GroupByRecordName([a1]);
    assert GroupByRecordName([a1][..0]) == [];
    assert first == Place(GroupByRecordName([a1][..0]), RecordNameOf(a1), c1);
    assert first == [ChallengeGroup(name, [c1])];
    assert GroupByRecordName(auths) == Place(first, name, c2);
    assert first[1..] == [];
    assert [c1] + [c2] == [c1, c2];
  }
}

=== FILE: cycle.dfy ===
/** One renewal cycle of the current scheduler, and the loop that runs
    cycles one after another.

    A cycle scans for expiring domains; with none it returns at once.
    Otherwise it opens one order for all of them and, for each record-name
    group of the order's challenges in turn, clears the name, publishes one
    TXT value per challenge, polls, and then issues (when the poll passed)
    or only logs. Any exception ends the cycle and is caught at the top, so
    a cycle never fails its caller.

    Every call outside the job is an oracle fixed per cycle: the order, the
    digest of each challenge, the replies of the DNS calls of each group,
    the challenge statuses of each group, and the issuance of each group.
 */
module Cycle {
  import opened Outcomes
  import opened TxtZone
  import opened CertStore
  import Naming
  import Expiry
  import AzureDns
  import Challenges
  import Poll
  import Issuance

  /** What the job changes: the DNS zone and the certificate store. */
  datatype World = World(zone: Zone, disk: Disk)

  /** The job's settings: the ACME part and the DNS zone name. */
  datatype Settings = Settings(acme: Expiry.AcmeConfig, zoneName: string)

  /** Opening the order and listing its authorizations. */
  datatype OrderReply = OrderOpened(authorizations: seq<Challenges.Authorization>) | OrderFailed

  /** The replies of the DNS calls made for one group: lookup and delete of
      the clear, lookup and write of the merge-add. */
  datatype GroupReplies = GroupReplies(clearLookup: Reply, clearDelete: Reply, addLookup: Reply, addWrite: Reply)

  datatype CycleOracle = CycleOracle(
    order: OrderReply,
    dnsTxt: Challenges.Challenge -> string,
    dns: nat -> GroupReplies,
    probe: nat -> Poll.Prober,
    issue: nat -> Issuance.IssueOracle)

  /** What happened to one group that ran to the end: its record name, the
      TXT values it published, what a read of the record name returned while
      it was polled, the poll's result, and whether it issued. */
  datatype GroupReport = GroupReport(recordName: string, published: seq<string>, visibleAtPoll: Result<seq<string>>,
                                     poll: Poll.PollResult, issued: bool)

  /** A group either runs to the end or lets an exception through; the
      changes made before the exception stay. */
  datatype GroupStep = GroupDone(report: GroupReport, world: World) | GroupFailed(fault: Fault, world: World)

  datatype CycleStatus = NoWork | Finished | Fatal(fault: Fault)

  /** How a cycle ended: its status, the domains it requested an order for
      (none when it did not reach the order), what each group that ran did,
      the reports of the groups that ran to the end, the common names of the
      certificates issued, and the world afterwards. */
  datatype CycleResult = CycleResult(status: CycleStatus, ordered: Option<seq<string>>, steps: seq<GroupStep>,
                                     reports: seq<GroupReport>, issued: seq<string>, world: World)

  const AllDelivered: GroupReplies := GroupReplies(Delivered, Delivered, Delivered, Delivered)

  // ---------------------------------------------------------------------------
  // Publishing one group's values

  datatype Publication = Published(zone: Zone) | PublishFailed(fault: Fault, zone: Zone)

  /** Clear the record name, then merge-add the values. Their return values
      are ignored; an exception from either ends the group. Every failure
      is a failed DNS request, and with every call delivered there is none. */
  function Publish(zone: Zone, zoneName: string, recordName: string, values: seq<string>, replies: GroupReplies)
    : (r: Publication)
    ensures r.PublishFailed? ==> r.fault.RequestFailed?
    ensures replies == AllDelivered ==> r.Published?
  {
    var cleared := AzureDns.ClearRecord(zone, zoneName, recordName, replies.clearLookup, replies.clearDelete);
    if cleared.Raised? then PublishFailed(cleared.fault, zone)
    else
      var added := AzureDns.AddRecords(cleared.zone, zoneName, recordName, values,
                                       replies.addLookup, replies.addWrite);
      if added.Raised? then PublishFailed(added.fault, cleared.zone)
      else Published(added.zone)
  }

  /** Publishing, whether it goes through or fails half-way, changes the
      zone only under the group's relative record name. */
  lemma {:induction false} PublishTouchesOnlyItsName(zone: Zone, zoneName: string, recordName: string,
                                                     values: seq<string>, replies: GroupReplies)
    ensures var r := Publish(zone, zoneName, recordName, values, replies);
            var rel := Naming.RelativeRecordName(recordName, zoneName);
            && (forall n :: n in zone && n != rel ==> n in r.zone && r.zone[n] == zone[n])
            && (forall n :: n in r.zone && n != rel ==> n in zone)
  {
    var cleared := AzureDns.ClearRecord(zone, zoneName, recordName, replies.clearLookup, replies.clearDelete);
    if cleared.Answer? {
      var added := AzureDns.AddRecords(cleared.zone, zoneName, recordName, values,
                                       replies.addLookup, replies.addWrite);
    }
  }

  /** With every call delivered, the record name holds exactly the new values
      afterwards, whatever it held before. */
  lemma {:induction false} PublishLeavesOnlyNewValues(zone: Zone, zoneName: string, recordName: string,
                                                      values: seq<string>)
    ensures var r := Publish(zone, zoneName, recordName, values, AllDelivered);
            r.Published? &&
            AzureDns.ReadRecord(r.zone, Naming.RelativeRecordName(recordName, zoneName), Delivered) == Done(values)
  {
    AzureDns.ClearThenAddLeavesOnlyNewValues(zone, zoneName, recordName, values);
  }

  // ---------------------------------------------------------------------------
  // One group

  /** What a report promises about the group it is for. */
  predicate ReportFits(settings: Settings, report: GroupReport, group: Challenges.ChallengeGroup, index: nat,
                       oracle: CycleOracle)
  {
    && report.recordName == group.recordName
    && report.published == Challenges.TxtValues(group, oracle.dnsTxt)
    && report.poll == Poll.PollFrom(oracle.probe(index), |group.challenges|, 0)
    && (report.issued <==> report.poll.verdict == Poll.Passed)
    && (oracle.dns(index) == AllDelivered ==> report.visibleAtPoll == Done(report.published))
  }

  /** What one group promises on the world it starts from: the zone is what
      publishing left; the certificate store changes only through the
      issuance, and only when publishing went through and the poll passed;
      the group lets an exception through exactly when publishing threw,
      a challenge call failed during the poll, or the issuance threw, and it
      is that exception; otherwise its report fits. */
  predicate StepFits(settings: Settings, group: Challenges.ChallengeGroup, index: nat, mainDomain: string,
                     world: World, oracle: CycleOracle, step: GroupStep)
  {
    var publication := Publish(world.zone, settings.zoneName, group.recordName,
                               Challenges.TxtValues(group, oracle.dnsTxt), oracle.dns(index));
    var verdict := Poll.PollFrom(oracle.probe(index), |group.challenges|, 0).verdict;
    var issuance := Issuance.IssueCertificate(world.disk, settings.acme.outCertificatePath, mainDomain,
                                              oracle.issue(index));
    var issues := publication.Published? && verdict == Poll.Passed;
    && step.world.zone == publication.zone
    && step.world.disk == (if issues then issuance.disk else world.disk)
    && (step.GroupFailed? <==>
          publication.PublishFailed? || (publication.Published? && verdict == Poll.Aborted)
          || (issues && issuance.fault.Some?))
    && (step.GroupFailed? ==>
          step.fault == (if publication.PublishFailed? then publication.fault
                         else if verdict == Poll.Aborted then ChallengeCallFailed
                         else issuance.fault.value))
    && (step.GroupDone? ==> ReportFits(settings, step.report, group, index, oracle))
  }

  /** Clear, publish, poll and, when the poll passed, issue for the first
      expiring domain. */
  method ProcessGroup(settings: Settings, group: Challenges.ChallengeGroup, index: nat, mainDomain: string,
                      world: World, oracle: CycleOracle) returns (step: GroupStep)
    ensures StepFits(settings, group, index, mainDomain, world, oracle, step)
  {
    var values := Challenges.TxtValues(group, oracle.dnsTxt);
    var publication := Publish(world.zone, settings.zoneName, group.recordName, values, oracle.dns(index));
    if publication.PublishFailed? {
      return GroupFailed(publication.fault, world.(zone := publication.zone));
    }
    var published := world.(zone := publication.zone);
    var rel := Naming.RelativeRecordName(group.recordName, settings.zoneName);
    var visible := AzureDns.ReadRecord(published.zone, rel, Delivered);
    if oracle.dns(index) == AllDelivered {
      PublishLeavesOnlyNewValues(world.zone, settings.zoneName, group.recordName, values);
    }
    var poll := Poll.PollChallenges(oracle.probe(index), |group.challenges|);
    if poll.verdict == Poll.Aborted {
      return GroupFailed(ChallengeCallFailed, published);
    }
    if poll.verdict != Poll.Passed {
      return GroupDone(GroupReport(group.recordName, values, visible, poll, false), published);
    }
    var issuance := Issuance.IssueCertificate(published.disk, settings.acme.outCertificatePath,
                                              mainDomain, oracle.issue(index));
    var after := published.(disk := issuance.disk);
    if issuance.fault.Some? {
      return GroupFailed(issuance.fault.value, after);
    }
    step := GroupDone(GroupReport(group.recordName, values, visible, poll, true), after);
  }

  /** With every DNS call of a group delivered, the zone the group leaves
      holds exactly its values under its relative name, whether or not its
      poll or its issuance failed afterwards. */
  lemma {:induction false} DeliveredGroupReadsBack(settings: Settings, group: Challenges.ChallengeGroup,
                                                   index: nat, mainDomain: string, world: World,
                                                   oracle: CycleOracle, step: GroupStep)
    requires StepFits(settings, group, index, mainDomain, world, oracle, step)
    requires oracle.dns(index) == AllDelivered
    ensures AzureDns.ReadRecord(step.world.zone, Naming.RelativeRecordName(group.recordName, settings.zoneName),
                                Delivered) == Done(Challenges.TxtValues(group, oracle.dnsTxt))
  {
    PublishLeavesOnlyNewValues(world.zone, settings.zoneName, group.recordName,
                               Challenges.TxtValues(group, oracle.dnsTxt));
  }

  // ---------------------------------------------------------------------------
  // The groups of one order

  /** The world group `i` starts from: the cycle's, then what the group
      before it left. */
  function StartOf(world: World, steps: seq<GroupStep>, i: nat): World
    requires i <= |steps|
  {
    if i == 0 then world else steps[i - 1].world
  }

  /** The promise of group `i` of `groups` in a cycle ordered for
      `mainDomain`. */
  function GroupPromise(settings: Settings, groups: seq<Challenges.ChallengeGroup>, mainDomain: string,
                        oracle: CycleOracle): (nat, World, GroupStep) -> bool
  {
    (i: nat, world: World, step: GroupStep) =>
      i < |groups| && StepFits(settings, groups[i], i, mainDomain, world, oracle, step)
  }

  /** The run of groups `from` to `count - 1`, starting on `world`, is
      `steps`: each step keeps its group's promise on the world the one
      before it left, a step that let an exception through is the last, and
      otherwise the run goes on to the last group. */
  predicate RunFits(promise: (nat, World, GroupStep) -> bool, count: nat, from: nat, world: World,
                    steps: seq<GroupStep>)
    decreases |steps|
  {
    if |steps| == 0 then from >= count
    else
      && from < count
      && promise(from, world, steps[0])
      && (if steps[0].GroupFailed? then |steps| == 1
          else RunFits(promise, count, from + 1, steps[0].world, steps[1..]))
  }

  /** Step `j` of a run from `from` is group `from + j`, run on the world
      step `j - 1` left, and it ran to the end unless it was the last step. */
  lemma {:induction false} RunStepAt(promise: (nat, World, GroupStep) -> bool, count: nat, from: nat, world: World,
                                     steps: seq<GroupStep>, j: nat)
    requires RunFits(promise, count, from, world, steps) && j < |steps|
    ensures from + j < count
    ensures promise(from + j, StartOf(world, steps, j), steps[j])
    ensures j + 1 < |steps| ==> steps[j].GroupDone?
    decreases j
  {
    if j > 0 {
      var rest := steps[1..];
      RunStepAt(promise, count, from + 1, steps[0].world, rest, j - 1);
      assert rest[j - 1] == steps[j];
      assert StartOf(steps[0].world, rest, j - 1) == StartOf(world, steps, j);
    }
  }

  /** A run goes on until its last group, or stops at a step that let an
      exception through. */
  lemma {:induction false} RunEnds(promise: (nat, World, GroupStep) -> bool, count: nat, from: nat, world: World,
                                   steps: seq<GroupStep>)
    requires RunFits(promise, count, from, world, steps)
    ensures |steps| == 0 || from + |steps| <= count
    ensures from + |steps| < count ==> |steps| > 0 && steps[|steps| - 1].GroupFailed?
    decreases |steps|
  {
    if |steps| > 0 && steps[0].GroupDone? {
      var rest := steps[1..];
      RunEnds(promise, count, from + 1, steps[0].world, rest);
      if |rest| > 0 {
        assert rest[|rest| - 1] == steps[|steps| - 1];
      }
    }
  }

  /** A property that every step keeping its promise has holds of every
      step of a run. */
  lemma {:induction false} RunStepsSatisfy(promise: (nat, World, GroupStep) -> bool, q: (nat, GroupStep) -> bool,
                                           count: nat, from: nat, world: World, steps: seq<GroupStep>)
    requires RunFits(promise, count, from, world, steps)
    requires forall i: nat, w: World, s: GroupStep :: promise(i, w, s) ==> q(i, s)
    ensures forall j :: 0 <= j < |steps| ==> q(from + j, steps[j])
    decreases |steps|
  {
    if |steps| > 0 && steps[0].GroupDone? {
      RunStepsSatisfy(promise, q, count, from + 1, steps[0].world, steps[1..]);
      assert forall j :: 1 <= j < |steps| ==> steps[j] == steps[1..][j - 1];
    }
  }

  /** A run whose every step keeps the certificate store as it found it
      leaves the store as it was. */
  lemma {:induction false} RunKeepsDisk(promise: (nat, World, GroupStep) -> bool, count: nat, from: nat,
                                        world: World, steps: seq<GroupStep>)
    requires RunFits(promise, count, from, world, steps)
    requires forall i: nat, w: World, s: GroupStep :: promise(i, w, s) ==> s.world.disk == w.disk
    ensures forall j :: 0 <= j < |steps| ==> steps[j].world.disk == world.disk
    decreases |steps|
  {
    if |steps| > 0 && steps[0].GroupDone? {
      RunKeepsDisk(promise, count, from + 1, steps[0].world, steps[1..]);
      assert forall j :: 1 <= j < |steps| ==> steps[j] == steps[1..][j - 1];
    }
  }

  /** Group `i` of a run of a cycle's groups kept its promise on the world
      group `i - 1` left. */
  lemma {:induction false} StepOfRun(settings: Settings, groups: seq<Challenges.ChallengeGroup>, mainDomain: string,
                                     world: World, oracle: CycleOracle, steps: seq<GroupStep>, i: nat)
    requires RunFits(GroupPromise(settings, groups, mainDomain, oracle), |groups|, 0, world, steps) && i < |steps|
    ensures i < |groups| && StepFits(settings, groups[i], i, mainDomain, StartOf(world, steps, i), oracle, steps[i])
  {
    RunStepAt(GroupPromise(settings, groups, mainDomain, oracle), |groups|, 0, world, steps, i);
  }

  /** The number of reports of groups that issued. */
  function IssuedCount(reports: seq<GroupReport>): nat
    decreases |reports|
  {
    if |reports| == 0 then 0
    else IssuedCount(reports[..|reports| - 1]) + (if reports[|reports| - 1].issued then 1 else 0)
  }

  lemma {:induction false} IssuedCountSnoc(reports: seq<GroupReport>, report: GroupReport)
    ensures IssuedCount(reports + [report]) == IssuedCount(reports) + (if report.issued then 1 else 0)
  {
    assert (reports + [report])[..|reports|] == reports;
  }

  /** The reports of the groups that ran to the end, in group order. */
  predicate ReportsFit(settings: Settings, reports: seq<GroupReport>, groups: seq<Challenges.ChallengeGroup>,
                       oracle: CycleOracle)
  {
    |reports| <= |groups| && forall i :: 0 <= i < |reports| ==> ReportFits(settings, reports[i], groups[i], i, oracle)
  }

  /** What the groups of one order came to: what each group that ran did,
      the reports of those that ran to the end, the common names issued,
      the exception that ended the run (if any), and the world afterwards. */
  datatype GroupsOutcome = GroupsOutcome(steps: seq<GroupStep>, reports: seq<GroupReport>, issued: seq<string>,
                                         fault: Option<Fault>, world: World)

  /** The exception that ended a run, if its last group let one through. */
  function LastFault(steps: seq<GroupStep>): Option<Fault> {
    if |steps| > 0 && steps[|steps| - 1].GroupFailed? then Some(steps[|steps| - 1].fault) else None
  }

  /** What a run of `count` groups promises whatever each group does: the
      groups ran in order, each on the world the one before it left and each
      keeping `promise`; the run stops early only at a group that let an
      exception through, and that exception ends it; the world afterwards is
      what the last group left; and the reports are those of the groups that
      ran to the end. */
  predicate RunOutcome(promise: (nat, World, GroupStep) -> bool, count: nat, world: World, g: GroupsOutcome)
  {
    var n := |g.steps|;
    && RunFits(promise, count, 0, world, g.steps)
    && (n < count ==> n > 0 && g.steps[n - 1].GroupFailed?)
    && g.fault == LastFault(g.steps)
    && g.world == StartOf(world, g.steps, n)
    && |g.reports| == (if g.fault.Some? then n - 1 else n)
    && (forall i :: 0 <= i < |g.reports| ==> g.steps[i].GroupDone? && g.reports[i] == g.steps[i].report)
  }

  /** What running the groups as written promises: a run of the groups in
      which each keeps its promise, and one certificate for `mainDomain`
      issued per group that issued, which is per group whose poll passed. */
  predicate GroupsFit(settings: Settings, groups: seq<Challenges.ChallengeGroup>, mainDomain: string,
                      world: World, oracle: CycleOracle, g: GroupsOutcome)
  {
    && RunOutcome(GroupPromise(settings, groups, mainDomain, oracle), |groups|, world, g)
    && |g.issued| == IssuedCount(g.reports)
    && (forall i :: 0 <= i < |g.issued| ==> g.issued[i] == mainDomain)
  }

  /** The reports of a fitting run fit their groups. */
  lemma {:induction false} FittingRunReports(settings: Settings, groups: seq<Challenges.ChallengeGroup>,
                                             mainDomain: string, world: World, oracle: CycleOracle,
                                             g: GroupsOutcome)
    requires GroupsFit(settings, groups, mainDomain, world, oracle, g)
    ensures ReportsFit(settings, g.reports, groups, oracle)
  {
    forall i | 0 <= i < |g.reports|
      ensures i < |groups| && ReportFits(settings, g.reports[i], groups[i], i, oracle)
    {
      StepOfRun(settings, groups, mainDomain, world, oracle, g.steps, i);
    }
  }

  /** The reports of the steps that ran to the end, and one `mainDomain`
      per report that issued. */
  method Summarize(steps: seq<GroupStep>, mainDomain: string) returns (reports: seq<GroupReport>, issued: seq<string>)
    requires forall k :: 0 <= k < |steps| - 1 ==> steps[k].GroupDone?
    ensures |reports| == (if |steps| > 0 && steps[|steps| - 1].GroupFailed? then |steps| - 1 else |steps|)
    ensures forall k :: 0 <= k < |reports| ==> steps[k].GroupDone? && reports[k] == steps[k].report
    ensures |issued| == IssuedCount(reports)
    ensures forall k :: 0 <= k < |issued| ==> issued[k] == mainDomain
  {
    reports, issued := [], [];
    var i := 0;
    while i < |steps| && steps[i].GroupDone?
      invariant 0 <= i <= |steps| && |reports| == i
      invariant forall k :: 0 <= k < i ==> steps[k].GroupDone? && reports[k] == steps[k].report
      invariant |issued| == IssuedCount(reports)
      invariant forall k :: 0 <= k < |issued| ==> issued[k] == mainDomain
    {
      IssuedCountSnoc(reports, steps[i].report);
      reports := reports + [steps[i].report];
      if steps[i].report.issued {
        issued := issued + [mainDomain];
      }
      i := i + 1;
    }
  }

  /** The groups from `from` on, in order, each on the world the previous
      one left; the first exception ends the run. */
  method RunFrom(settings: Settings, groups: seq<Challenges.ChallengeGroup>, from: nat, mainDomain: string,
                 world: World, oracle: CycleOracle) returns (steps: seq<GroupStep>)
    ensures RunFits(GroupPromise(settings, groups, mainDomain, oracle), |groups|, from, world, steps)
    decreases |groups| - from
  {
    if from >= |groups| {
      return [];
    }
    var step := ProcessGroup(settings, groups[from], from, mainDomain, world, oracle);
    if step.GroupFailed? {
      return [step];
    }
    var rest := RunFrom(settings, groups, from + 1, mainDomain, step.world, oracle);
    steps := [step] + rest;
    assert steps[1..] == rest;
  }

  /** The groups of one order, in order, each on the world the previous one
      left; the first exception ends the run. */
  method ProcessGroups(settings: Settings, groups: seq<Challenges.ChallengeGroup>, mainDomain: string,
                       world: World, oracle: CycleOracle) returns (g: GroupsOutcome)
    ensures GroupsFit(settings, groups, mainDomain, world, oracle, g)
  {
    var steps := RunFrom(settings, groups, 0, mainDomain, world, oracle);
    var promise := GroupPromise(settings, groups, mainDomain, oracle);
    RunEnds(promise, |groups|, 0, world, steps);
    forall k | 0 <= k < |steps| - 1
      ensures steps[k].GroupDone?
    {
      RunStepAt(promise, |groups|, 0, world, steps, k);
    }
    var reports, issued := Summarize(steps, mainDomain);
    var n := |steps|;
    g := GroupsOutcome(steps, reports, issued, LastFault(steps), StartOf(world, steps, n));
  }

  /** As written, issuance happens inside the group loop: an order whose
      authorizations fall into two record-name groups that both pass issues
      two certificates for the same common name. The first request finalizes
      the order when only the first group has passed; the second issues
      again for the same name. */
  lemma {:induction false} TwoPassingGroupsIssueTwice(settings: Settings, groups: seq<Challenges.ChallengeGroup>,
                                                      mainDomain: string, world: World, oracle: CycleOracle,
                                                      g: GroupsOutcome)
    requires GroupsFit(settings, groups, mainDomain, world, oracle, g) && g.fault.None?
    requires |groups| == 2
    requires forall i :: 0 <= i < 2 ==>
               Poll.PollFrom(oracle.probe(i), |groups[i].challenges|, 0).verdict == Poll.Passed
    ensures g.issued == [mainDomain, mainDomain]
  {
    FittingRunReports(settings, groups, mainDomain, world, oracle, g);
    assert ReportFits(settings, g.reports[0], groups[0], 0, oracle);
    assert ReportFits(settings, g.reports[1], groups[1], 1, oracle);
    var first := g.reports[..1];
    assert first[..0] == [];
    assert IssuedCount(first) == 1;
    assert g.reports[..|g.reports| - 1] == first;
  }

  // ---------------------------------------------------------------------------
  // The cycle

  /** The status a cycle ends with once its groups ran. */
  function GroupsStatus(fault: Option<Fault>): CycleStatus {
    if fault.Some? then Fatal(fault.value) else Finished
  }

  function StatusFault(status: CycleStatus): Option<Fault> {
    if status.Fatal? then Some(status.fault) else None
  }

  /** What a cycle promises, given the scan it starts with: a failed scan or
      order ends it as Fatal with nothing changed, an empty scan ends it with
      no work, and otherwise it orders every expiring domain and runs the
      groups of the order, ending as Fatal with the exception that stopped
      them, if any, and on the world the last group left. */
  predicate CycleSpec(settings: Settings, world: World, now: int, oracle: CycleOracle, r: CycleResult) {
    var scan := Expiry.ExpiringDomains(settings.acme, world.disk, now);
    match scan
    case Thrown(fault) => r == CycleResult(Fatal(fault), None, [], [], [], world)
    case Done(expiring) =>
      if |expiring| == 0 then r == CycleResult(NoWork, None, [], [], [], world)
      else match oracle.order
        case OrderFailed => r == CycleResult(Fatal(OrderRejected), Some(expiring), [], [], [], world)
        case OrderOpened(auths) =>
          && r.ordered == Some(expiring)
          && (r.status == Finished || r.status.Fatal?)
          && GroupsFit(settings, Challenges.GroupByRecordName(auths), expiring[0], world, oracle,
                       GroupsOutcome(r.steps, r.reports, r.issued, StatusFault(r.status), r.world))
  }

  /** One cycle as the scheduler runs it. Every exception is caught and ends
      the cycle as Fatal. */
  method HandleExpiringDomains(settings: Settings, world: World, now: int, oracle: CycleOracle)
    returns (r: CycleResult)
    ensures CycleSpec(settings, world, now, oracle, r)
  {
    var scan := Expiry.GetExpiringDomains(settings.acme, world.disk, now);
    if scan.Thrown? {
      return CycleResult(Fatal(scan.fault), None, [], [], [], world);
    }
    var expiring := scan.value;
    if |expiring| == 0 {
      return CycleResult(NoWork, None, [], [], [], world);
    }
    if oracle.order.OrderFailed? {
      return CycleResult(Fatal(OrderRejected), Some(expiring), [], [], [], world);
    }
    var groups := Challenges.GroupByRecordName(oracle.order.authorizations);
    var g := ProcessGroups(settings, groups, expiring[0], world, oracle);
    r := CycleResult(GroupsStatus(g.fault), Some(expiring), g.steps, g.reports, g.issued, g.world);
  }

  /** In a cycle that reached its order, group `i` ran on the world group
      `i - 1` left; it changed the certificate store only by issuing for the
      first expiring domain, and with its DNS calls delivered it left its
      values, and only those, under its relative name. */
  lemma {:induction false} CycleGroupEffects(settings: Settings, world: World, now: int, oracle: CycleOracle,
                                             r: CycleResult, i: nat)
    requires CycleSpec(settings, world, now, oracle, r)
    requires i < |r.steps|
    ensures oracle.order.OrderOpened? && r.ordered.Some? && |r.ordered.value| > 0
    ensures var groups := Challenges.GroupByRecordName(oracle.order.authorizations);
            var before := StartOf(world, r.steps, i);
            && i < |groups|
            && (r.steps[i].world.disk == before.disk
                || r.steps[i].world.disk == Issuance.IssueCertificate(before.disk, settings.acme.outCertificatePath,
                                                                      r.ordered.value[0], oracle.issue(i)).disk)
            && (oracle.dns(i) == AllDelivered ==>
                  AzureDns.ReadRecord(r.steps[i].world.zone,
                                      Naming.RelativeRecordName(groups[i].recordName, settings.zoneName),
                                      Delivered) == Done(Challenges.TxtValues(groups[i], oracle.dnsTxt)))
  {
    var expiring := Expiry.ExpiringDomains(settings.acme, world.disk, now).value;
    var groups := Challenges.GroupByRecordName(oracle.order.authorizations);
    StepOfRun(settings, groups, expiring[0], world, oracle, r.steps, i);
    if oracle.dns(i) == AllDelivered {
      DeliveredGroupReadsBack(settings, groups[i], i, expiring[0], StartOf(world, r.steps, i), oracle, r.steps[i]);
    }
  }

  // ---------------------------------------------------------------------------
  // The cycle as intended

  /** What one group promises in the corrected cycle: as in the cycle as
      written, except that it polls with the corrected poll and never issues,
      so the certificate store is left as it was. */
  predicate IntendedStepFits(settings: Settings, group: Challenges.ChallengeGroup, index: nat, world: World,
                             oracle: CycleOracle, step: GroupStep)
  {
    var publication := Publish(world.zone, settings.zoneName, group.recordName,
                               Challenges.TxtValues(group, oracle.dnsTxt), oracle.dns(index));
    var poll := Poll.IntendedPollFrom(oracle.probe(index), |group.challenges|, 0);
    && step.world == world.(zone := publication.zone)
    && (step.GroupFailed? <==> publication.PublishFailed? || poll.verdict == Poll.Aborted)
    && (step.GroupFailed? ==>
          step.fault == (if publication.PublishFailed? then publication.fault else ChallengeCallFailed))
    && (step.GroupDone? ==>
          && step.report.recordName == group.recordName
          && step.report.published == Challenges.TxtValues(group, oracle.dnsTxt)
          && step.report.poll == poll
          && !step.report.issued
          && (oracle.dns(index) == AllDelivered ==> step.report.visibleAtPoll == Done(step.report.published)))
  }

  /** Clear, publish and poll one group with the corrected poll; it does not
      issue. */
  method PollGroupIntended(settings: Settings, group: Challenges.ChallengeGroup, index: nat,
                           world: World, oracle: CycleOracle) returns (step: GroupStep)
    ensures IntendedStepFits(settings, group, index, world, oracle, step)
  {
    var values := Challenges.TxtValues(group, oracle.dnsTxt);
    var publication := Publish(world.zone, settings.zoneName, group.recordName, values, oracle.dns(index));
    if publication.PublishFailed? {
      return GroupFailed(publication.fault, world.(zone := publication.zone));
    }
    var published := world.(zone := publication.zone);
    var rel := Naming.RelativeRecordName(group.recordName, settings.zoneName);
    var visible := AzureDns.ReadRecord(published.zone, rel, Delivered);
    if oracle.dns(index) == AllDelivered {
      PublishLeavesOnlyNewValues(world.zone, settings.zoneName, group.recordName, values);
    }
    var poll := Poll.IntendedPollFrom(oracle.probe(index), |group.challenges|, 0);
    if poll.verdict == Poll.Aborted {
      return GroupFailed(ChallengeCallFailed, published);
    }
    step := GroupDone(GroupReport(group.recordName, values, visible, poll, false), published);
  }

  predicate AllPassed(reports: seq<GroupReport>) {
    forall i :: 0 <= i < |reports| ==> reports[i].poll.verdict == Poll.Passed
  }

  /** The reports of the corrected cycle are those of its groups, in order,
      each with the corrected poll. */
  predicate IntendedReportsFit(reports: seq<GroupReport>, groups: seq<Challenges.ChallengeGroup>,
                               oracle: CycleOracle)
  {
    && |reports| <= |groups|
    && forall i :: 0 <= i < |reports| ==>
         && reports[i].recordName == groups[i].recordName
         && reports[i].poll == Poll.IntendedPollFrom(oracle.probe(i), |groups[i].challenges|, 0)
  }

  lemma {:induction false} IntendedReportsFitSnoc(reports: seq<GroupReport>, groups: seq<Challenges.ChallengeGroup>,
                                                  oracle: CycleOracle, report: GroupReport)
    requires IntendedReportsFit(reports, groups, oracle) && |reports| < |groups|
    requires report.recordName == groups[|reports|].recordName
    requires report.poll == Poll.IntendedPollFrom(oracle.probe(|reports|), |groups[|reports|].challenges|, 0)
    ensures IntendedReportsFit(reports + [report], groups, oracle)
  {
  }

  /** Group `i` of the corrected run keeps the corrected group's promise. */
  function IntendedPromise(settings: Settings, groups: seq<Challenges.ChallengeGroup>, oracle: CycleOracle)
    : (nat, World, GroupStep) -> bool
  {
    (i: nat, world: World, step: GroupStep) =>
      i < |groups| && IntendedStepFits(settings, groups[i], i, world, oracle, step)
  }

  /** What running the groups with the corrected poll promises: a run of the
      groups in which each keeps the corrected group's promise, and nothing
      issued. */
  predicate IntendedGroupsFit(settings: Settings, groups: seq<Challenges.ChallengeGroup>, world: World,
                              oracle: CycleOracle, g: GroupsOutcome)
  {
    && RunOutcome(IntendedPromise(settings, groups, oracle), |groups|, world, g)
    && g.issued == []
  }

  /** A corrected group leaves the certificate store as it found it. */
  lemma IntendedPromiseKeepsDisk(settings: Settings, groups: seq<Challenges.ChallengeGroup>, oracle: CycleOracle)
    ensures forall i: nat, w: World, s: GroupStep :: IntendedPromise(settings, groups, oracle)(i, w, s) ==>
              s.world.disk == w.disk
  {
    forall i: nat, w: World, s: GroupStep | IntendedPromise(settings, groups, oracle)(i, w, s)
      ensures s.world.disk == w.disk
    {
      assert IntendedStepFits(settings, groups[i], i, w, oracle, s);
    }
  }

  /** What the report of corrected group `i` says, if it ran to the end:
      its own record name and the corrected poll. */
  function IntendedReportOf(groups: seq<Challenges.ChallengeGroup>, oracle: CycleOracle): (nat, GroupStep) -> bool
  {
    (i: nat, s: GroupStep) =>
      && i < |groups|
      && (s.GroupDone? ==>
            && s.report.recordName == groups[i].recordName
            && s.report.poll == Poll.IntendedPollFrom(oracle.probe(i), |groups[i].challenges|, 0))
  }

  /** A corrected group that ran to the end reports its own record name and
      the corrected poll. */
  lemma IntendedPromiseReports(settings: Settings, groups: seq<Challenges.ChallengeGroup>, oracle: CycleOracle)
    ensures forall i: nat, w: World, s: GroupStep :: IntendedPromise(settings, groups, oracle)(i, w, s) ==>
              IntendedReportOf(groups, oracle)(i, s)
  {
    forall i: nat, w: World, s: GroupStep | IntendedPromise(settings, groups, oracle)(i, w, s)
      ensures IntendedReportOf(groups, oracle)(i, s)
    {
      assert IntendedStepFits(settings, groups[i], i, w, oracle, s);
    }
  }

  /** A fitting corrected run leaves the certificate store as it was. */
  lemma {:induction false} IntendedRunKeepsDisk(settings: Settings, groups: seq<Challenges.ChallengeGroup>,
                                                world: World, oracle: CycleOracle, g: GroupsOutcome)
    requires IntendedGroupsFit(settings, groups, world, oracle, g)
    ensures g.world.disk == world.disk
  {
    IntendedPromiseKeepsDisk(settings, groups, oracle);
    RunKeepsDisk(IntendedPromise(settings, groups, oracle), |groups|, 0, world, g.steps);
  }

  /** The reports of a fitting corrected run are those of its groups, in
      order, each with the corrected poll, and a run that let no exception
      through reports every group. */
  lemma {:induction false} IntendedRunReports(settings: Settings, groups: seq<Challenges.ChallengeGroup>,
                                              world: World, oracle: CycleOracle, g: GroupsOutcome)
    requires IntendedGroupsFit(settings, groups, world, oracle, g)
    ensures IntendedReportsFit(g.reports, groups, oracle)
    ensures g.fault.None? ==> |g.reports| == |groups|
  {
    var promise, q := IntendedPromise(settings, groups, oracle), IntendedReportOf(groups, oracle);
    RunEnds(promise, |groups|, 0, world, g.steps);
    IntendedPromiseReports(settings, groups, oracle);
    RunStepsSatisfy(promise, q, |groups|, 0, world, g.steps);
    forall k | 0 <= k < |g.reports|
      ensures && k < |groups|
              && g.reports[k].recordName == groups[k].recordName
              && g.reports[k].poll == Poll.IntendedPollFrom(oracle.probe(k), |groups[k].challenges|, 0)
    {
      assert q(0 + k, g.steps[k]);
    }
  }

  /** The groups from `from` on, in order, with the corrected poll, each on
      the world the previous one left; the first exception ends the run. */
  method RunIntendedFrom(settings: Settings, groups: seq<Challenges.ChallengeGroup>, from: nat, world: World,
                         oracle: CycleOracle) returns (steps: seq<GroupStep>)
    ensures RunFits(IntendedPromise(settings, groups, oracle), |groups|, from, world, steps)
    decreases |groups| - from
  {
    if from >= |groups| {
      return [];
    }
    var step := PollGroupIntended(settings, groups[from], from, world, oracle);
    if step.GroupFailed? {
      return [step];
    }
    var rest := RunIntendedFrom(settings, groups, from + 1, step.world, oracle);
    steps := [step] + rest;
    assert steps[1..] == rest;
  }

  /** Publish and poll every group in order with the corrected poll, each
      on the world the previous one left; the first exception ends the run.
      Nothing is issued, so the certificate store is left as it was. */
  method PollGroupsIntended(settings: Settings, groups: seq<Challenges.ChallengeGroup>, world: World,
                            oracle: CycleOracle) returns (g: GroupsOutcome)
    ensures IntendedGroupsFit(settings, groups, world, oracle, g)
    ensures IntendedReportsFit(g.reports, groups, oracle)
    ensures g.fault.None? ==> |g.reports| == |groups|
    ensures g.issued == [] && g.world.disk == world.disk
  {
    var steps := RunIntendedFrom(settings, groups, 0, world, oracle);
    var promise := IntendedPromise(settings, groups, oracle);
    RunEnds(promise, |groups|, 0, world, steps);
    forall k | 0 <= k < |steps| - 1
      ensures steps[k].GroupDone?
    {
      RunStepAt(promise, |groups|, 0, world, steps, k);
    }
    var reports, _ := Summarize(steps, "");
    g := GroupsOutcome(steps, reports, [], LastFault(steps), StartOf(world, steps, |steps|));
    IntendedRunReports(settings, groups, world, oracle, g);
    IntendedRunKeepsDisk(settings, groups, world, oracle, g);
  }

  /** What the corrected cycle promises: the scan, the empty case and the
      order as in the cycle as written; then the groups run with the
      corrected poll and issue nothing; and afterwards one certificate, for
      the first expiring domain, is issued into the folder the scan reads,
      exactly when the run let no exception through and every group passed.
      The cycle is fatal when the run or that issuance let an exception
      through. */
  predicate IntendedCycleSpec(settings: Settings, world: World, now: int, oracle: CycleOracle, r: CycleResult)
  {
    var scan := Expiry.ExpiringDomains(settings.acme, world.disk, now);
    match scan
    case Thrown(fault) => r == CycleResult(Fatal(fault), None, [], [], [], world)
    case Done(expiring) =>
      if |expiring| == 0 then r == CycleResult(NoWork, None, [], [], [], world)
      else match oracle.order
        case OrderFailed => r == CycleResult(Fatal(OrderRejected), Some(expiring), [], [], [], world)
        case OrderOpened(auths) =>
          var polled := GroupsOutcome(r.steps, r.reports, [], LastFault(r.steps), StartOf(world, r.steps, |r.steps|));
          var issues := polled.fault.None? && AllPassed(r.reports);
          var issuance := Issuance.IssueCertificateIntended(polled.world.disk, settings.acme.outCertificatePath,
                                                            expiring[0], oracle.issue(0));
          && r.ordered == Some(expiring)
          && IntendedGroupsFit(settings, Challenges.GroupByRecordName(auths), world, oracle, polled)
          && r.status == (if polled.fault.Some? then Fatal(polled.fault.value)
                          else if issues && issuance.fault.Some? then Fatal(issuance.fault.value)
                          else Finished)
          && r.issued == (if issues && issuance.fault.None? then [expiring[0]] else [])
          && r.world == (if issues then polled.world.(disk := issuance.disk) else polled.world)
  }

  /** A corrected cycle issues exactly when it finished, reached its order
      and every group passed; and then it issued one certificate, for the
      first domain the scan selected. */
  lemma {:induction false} IntendedCycleIssuesOnce(settings: Settings, world: World, now: int, oracle: CycleOracle,
                                                   r: CycleResult)
    requires IntendedCycleSpec(settings, world, now, oracle, r)
    ensures r.issued != [] <==>
              r.status == Finished && r.ordered.Some? && oracle.order.OrderOpened? && AllPassed(r.reports)
    ensures r.issued != [] ==>
              var scan := Expiry.ExpiringDomains(settings.acme, world.disk, now);
              && scan.Done? && |scan.value| > 0 && r.ordered == Some(scan.value)
              && r.issued == [scan.value[0]]
  {
  }

  /** The corrected cycle: every group is published and polled first, and
      one certificate is issued afterwards, only when every group passed,
      into the folder the scan reads; the certificate store changes only
      through that one issuance. */
  method HandleExpiringDomainsIntended(settings: Settings, world: World, now: int, oracle: CycleOracle)
    returns (r: CycleResult)
    ensures IntendedCycleSpec(settings, world, now, oracle, r)
    ensures |r.issued| <= 1
    ensures |r.issued| == 1 ==> r.ordered.Some? && |r.ordered.value| > 0 && r.issued[0] == r.ordered.value[0]
                                && AllPassed(r.reports)
    ensures |r.issued| == 1 ==> oracle.order.OrderOpened?
                                && |r.reports| == |Challenges.GroupByRecordName(oracle.order.authorizations)|
    ensures r.status == Finished && r.ordered.Some? && oracle.order.OrderOpened? && AllPassed(r.reports)
            ==> |r.issued| == 1
    ensures oracle.order.OrderOpened? ==>
              IntendedReportsFit(r.reports, Challenges.GroupByRecordName(oracle.order.authorizations), oracle)
    ensures r.world.disk != world.disk ==>
              && r.ordered.Some? && |r.ordered.value| > 0 && oracle.order.OrderOpened? && AllPassed(r.reports)
              && |r.reports| == |Challenges.GroupByRecordName(oracle.order.authorizations)|
              && r.world.disk == Issuance.IssueCertificateIntended(world.disk, settings.acme.outCertificatePath,
                                                                   r.ordered.value[0], oracle.issue(0)).disk
    ensures |r.issued| == 1 ==>
              r.world.disk == Issuance.IssueCertificateIntended(world.disk, settings.acme.outCertificatePath,
                                                                r.issued[0], oracle.issue(0)).disk
  {
    var scan := Expiry.GetExpiringDomains(settings.acme, world.disk, now);
    if scan.Thrown? {
      return CycleResult(Fatal(scan.fault), None, [], [], [], world);
    }
    var expiring := scan.value;
    if |expiring| == 0 {
      return CycleResult(NoWork, None, [], [], [], world);
    }
    if oracle.order.OrderFailed? {
      return CycleResult(Fatal(OrderRejected), Some(expiring), [], [], [], world);
    }
    var groups := Challenges.GroupByRecordName(oracle.order.authorizations);
    var g := PollGroupsIntended(settings, groups, world, oracle);
    if g.fault.Some? {
      return CycleResult(Fatal(g.fault.value), Some(expiring), g.steps, g.reports, [], g.world);
    }
    var steps, reports, current := g.steps, g.reports, g.world;
    if !AllPassed(reports) {
      return CycleResult(Finished, Some(expiring), steps, reports, [], current);
    }
    var issuance := Issuance.IssueCertificateIntended(current.disk, settings.acme.outCertificatePath,
                                                      expiring[0], oracle.issue(0));
    var after := current.(disk := issuance.disk);
    if issuance.fault.Some? {
      return CycleResult(Fatal(issuance.fault.value), Some(expiring), steps, reports, [], after);
    }
    r := CycleResult(Finished, Some(expiring), steps, reports, [expiring[0]], after);
  }

  // ---------------------------------------------------------------------------
  // The scheduler loop

  /** The inputs of one cycle: the time it starts and what the outside
      world answers during it. */
  datatype CyclePlan = CyclePlan(now: int, oracle: CycleOracle)

  /** The world each cycle starts from: the initial one, then what the
      previous cycle left. */
  function WorldBefore(initial: World, results: seq<CycleResult>, i: nat): World
    requires i <= |results|
  {
    if i == 0 then initial else results[i - 1].world
  }

  /** Every cycle run so far kept `promise`, each on the world the previous
      one left. */
  predicate CyclesKeep(promise: (World, CyclePlan, CycleResult) -> bool, initial: World, plans: seq<CyclePlan>,
                       results: seq<CycleResult>)
    decreases |results|
  {
    && |results| <= |plans|
    && (|results| > 0 ==>
          var n := |results| - 1;
          && CyclesKeep(promise, initial, plans, results[..n])
          && promise(WorldBefore(initial, results, n), plans[n], results[n]))
  }

  /** Appending the next cycle, run on the world the last one left, keeps
      every cycle's promise. */
  lemma {:induction false} CyclesKeepSnoc(promise: (World, CyclePlan, CycleResult) -> bool, initial: World,
                                          plans: seq<CyclePlan>, results: seq<CycleResult>, outcome: CycleResult)
    requires CyclesKeep(promise, initial, plans, results) && |results| < |plans|
    requires promise(WorldBefore(initial, results, |results|), plans[|results|], outcome)
    ensures CyclesKeep(promise, initial, plans, results + [outcome])
  {
    var next := results + [outcome];
    assert next[..|results|] == results;
    assert WorldBefore(initial, next, |results|) == WorldBefore(initial, results, |results|);
  }

  /** Cycle `i` of a run that kept its promises kept it on the world cycle
      `i - 1` left. */
  lemma {:induction false} KeptAt(promise: (World, CyclePlan, CycleResult) -> bool, initial: World,
                                  plans: seq<CyclePlan>, results: seq<CycleResult>, i: nat)
    requires CyclesKeep(promise, initial, plans, results) && i < |results|
    ensures promise(WorldBefore(initial, results, i), plans[i], results[i])
    decreases |results|
  {
    var n := |results| - 1;
    if i < n {
      var prefix := results[..n];
      KeptAt(promise, initial, plans, prefix, i);
      assert prefix[i] == results[i];
      assert WorldBefore(initial, prefix, i) == WorldBefore(initial, results, i);
    }
  }

  /** The promise of one cycle of the scheduler. */
  function CyclePromise(settings: Settings): (World, CyclePlan, CycleResult) -> bool {
    (world: World, plan: CyclePlan, r: CycleResult) => CycleSpec(settings, world, plan.now, plan.oracle, r)
  }

  /** Every cycle run so far kept its promise, each on the world the
      previous one left. */
  predicate CyclesFit(settings: Settings, initial: World, plans: seq<CyclePlan>, results: seq<CycleResult>) {
    CyclesKeep(CyclePromise(settings), initial, plans, results)
  }

  /** Cycle `i` of a fitting run kept its promise on the world cycle `i - 1`
      left. */
  lemma {:induction false} CycleKeptPromise(settings: Settings, initial: World, plans: seq<CyclePlan>,
                                            results: seq<CycleResult>, i: nat)
    requires CyclesFit(settings, initial, plans, results) && i < |results|
    ensures CycleSpec(settings, WorldBefore(initial, results, i), plans[i].now, plans[i].oracle, results[i])
  {
    KeptAt(CyclePromise(settings), initial, plans, results, i);
  }

  /** The scheduler as it runs: each cycle runs to completion, on the world
      the previous one left and whatever status that one ended with, before
      the next starts; the loop goes on until it is cancelled, here after
      the planned cycles. */
  method Start(settings: Settings, initial: World, plans: seq<CyclePlan>) returns (results: seq<CycleResult>)
    ensures |results| == |plans|
    ensures CyclesFit(settings, initial, plans, results)
  {
    results := [];
    var world := initial;
    var i := 0;
    while i < |plans|
      invariant 0 <= i <= |plans| && |results| == i
      invariant world == WorldBefore(initial, results, i)
      invariant CyclesFit(settings, initial, plans, results)
    {
      var outcome := HandleExpiringDomains(settings, world, plans[i].now, plans[i].oracle);
      assert CyclePromise(settings)(world, plans[i], outcome);
      CyclesKeepSnoc(CyclePromise(settings), initial, plans, results, outcome);
      results := results + [outcome];
      world := outcome.world;
      i := i + 1;
    }
  }
}

=== FILE: expiry.dfy ===
/** Expiry selection of the current job: which configured domains need a new
    certificate this cycle. A domain is selected when the certificate file
    in its folder is missing, or when less than 30 days are left before the
    certificate's not-after time. A file that does not parse makes the
    certificate constructor throw, which aborts the whole scan.
 */
module Expiry {
  import opened Outcomes
  import opened CertStore
  import Naming
  import Seqs

  /** The part of the job's ACME configuration the scan reads. */
  datatype AcmeConfig = AcmeConfig(outCertificatePath: string, domains: seq<string>)

  /** The certificate file consulted for a domain: the folder is the domain
      with its leading `*` and `.` characters removed. */
  function CertificatePath(root: string, domain: string): (p: FilePath)
    ensures p.root == root && p.file == CertificateFile
    ensures p.folder == Naming.TrimLeadingWildcard(domain)
  {
    FilePath(root, Naming.TrimLeadingWildcard(domain), CertificateFile)
  }

  /** What reading a domain's certificate file yields. */
  datatype CertCheck = NoCertificate | ExpiresAt(notAfter: int) | Unreadable

  /** The domain's certificate file: missing, a certificate with its
      not-after time, or anything else, which does not parse. */
  function Inspect(disk: Disk, root: string, domain: string): (r: CertCheck)
    ensures r.NoCertificate? <==> CertificatePath(root, domain) !in disk
    ensures r.ExpiresAt? <==>
              CertificatePath(root, domain) in disk && disk[CertificatePath(root, domain)].CertificatePem?
    ensures r.ExpiresAt? ==> r.notAfter == disk[CertificatePath(root, domain)].notAfter
  {
    var path := CertificatePath(root, domain);
    if path !in disk then NoCertificate
    else match disk[path]
      case CertificatePem(notAfter) => ExpiresAt(notAfter)
      case _ => Unreadable
  }

  /** Strictly less than 30 days left. */
  predicate DueForRenewal(notAfter: int, now: int) {
    notAfter - now < RenewalWindow
  }

  /** A readable domain is selected when its file is missing or due. */
  predicate NeedsRenewal(disk: Disk, root: string, now: int, domain: string) {
    match Inspect(disk, root, domain)
    case NoCertificate => true
    case ExpiresAt(notAfter) => DueForRenewal(notAfter, now)
    case Unreadable => false
  }

  function Selects(disk: Disk, root: string, now: int): string -> bool {
    d => NeedsRenewal(disk, root, now, d)
  }

  predicate IsUnreadable(disk: Disk, root: string, domain: string) {
    Inspect(disk, root, domain).Unreadable?
  }

  /** No domain in `domains` has an unreadable certificate file. */
  predicate AllReadable(disk: Disk, root: string, domains: seq<string>) {
    forall j :: 0 <= j < |domains| ==> !IsUnreadable(disk, root, domains[j])
  }

  /** The position of the first domain whose certificate file does not
      parse, or the number of domains when every file is readable. */
  function FirstUnreadable(disk: Disk, root: string, domains: seq<string>): (i: nat)
    ensures i <= |domains|
    ensures forall j :: 0 <= j < i ==> !IsUnreadable(disk, root, domains[j])
    ensures i < |domains| ==> IsUnreadable(disk, root, domains[i])
    decreases |domains|
  {
    if |domains| == 0 then 0
    else if IsUnreadable(disk, root, domains[0]) then 0
    else
      var rest := FirstUnreadable(disk, root, domains[1..]);
      assert forall j :: 1 <= j <= rest ==> domains[j] == domains[1..][j - 1];
      1 + rest
  }

  /** What the scan amounts to: the domains that need renewal, in configured
      order, unless some certificate file does not parse, in which case the
      first such domain's exception. */
  function ExpiringDomains(config: AcmeConfig, disk: Disk, now: int): Result<seq<string>> {
    var root := config.outCertificatePath;
    var i := FirstUnreadable(disk, root, config.domains);
    if i < |config.domains| then Thrown(CertificateUnreadable(config.domains[i]))
    else Done(Seqs.Filter(config.domains, Selects(disk, root, now)))
  }

  /** The scan over the configured domains, in configured order, as the job
      runs it: one pass, queueing the domains that need renewal and stopping
      at the first certificate file that does not parse. */
  method GetExpiringDomains(config: AcmeConfig, disk: Disk, now: int) returns (r: Result<seq<string>>)
    ensures r == ExpiringDomains(config, disk, now)
  {
    var domains, root := config.domains, config.outCertificatePath;
    var selects := Selects(disk, root, now);
    var queue: seq<string> := [];
    var i := 0;
    while i < |domains|
      invariant 0 <= i <= |domains|
      invariant forall j :: 0 <= j < i ==> !IsUnreadable(disk, root, domains[j])
      invariant queue == Seqs.Filter(domains[..i], selects)
    {
      var domain := domains[i];
      var check := Inspect(disk, root, domain);
      if check.Unreadable? {
        assert FirstUnreadable(disk, root, domains) == i;
        return Thrown(CertificateUnreadable(domain));
      }
      if check.NoCertificate? || check.notAfter - now < RenewalWindow {
        queue := queue + [domain];
      }
      assert selects(domain) == (check.NoCertificate? || check.notAfter - now < RenewalWindow);
      Seqs.FilterPrefixStep(domains, i, selects);
      i := i + 1;
    }
    assert domains[..i] == domains;
    assert FirstUnreadable(disk, root, domains) == |domains|;
    r := Done(queue);
  }

  /** The scan throws exactly when some configured certificate file does not
      parse, and then it names the first such domain. */
  lemma ScanThrowsIffUnreadable(config: AcmeConfig, disk: Disk, now: int)
    ensures ExpiringDomains(config, disk, now).Thrown?
            <==> !AllReadable(disk, config.outCertificatePath, config.domains)
    ensures ExpiringDomains(config, disk, now).Thrown? ==>
            exists i :: 0 <= i < |config.domains|
                        && ExpiringDomains(config, disk, now).fault == CertificateUnreadable(config.domains[i])
                        && IsUnreadable(disk, config.outCertificatePath, config.domains[i])
                        && AllReadable(disk, config.outCertificatePath, config.domains[..i])
  {
    var root := config.outCertificatePath;
    var i := FirstUnreadable(disk, root, config.domains);
    if i < |config.domains| {
      assert AllReadable(disk, root, config.domains[..i]);
    }
  }

  /** The selection keeps the configured order, holds exactly the configured
      domains that need renewal, and keeps each of them as often as it is
      configured (a domain listed twice is queued twice). */
  lemma ExpiringSelectionShape(config: AcmeConfig, disk: Disk, now: int)
    ensures var selected := Seqs.Filter(config.domains, Selects(disk, config.outCertificatePath, now));
            && Seqs.IsSubsequence(selected, config.domains)
            && (forall d :: d in selected <==>
                  d in config.domains && NeedsRenewal(disk, config.outCertificatePath, now, d))
            && (forall d :: multiset(selected)[d] ==
                  if NeedsRenewal(disk, config.outCertificatePath, now, d) then multiset(config.domains)[d] else 0)
  {
    var selects := Selects(disk, config.outCertificatePath, now);
    Seqs.FilterIsSubsequence(config.domains, selects);
    Seqs.FilterMembership(config.domains, selects);
    Seqs.FilterCount(config.domains, selects);
  }

  // ---------------------------------------------------------------------------
  // Properties of the selection

  /** A configured domain whose certificate file is missing is always selected. */
  lemma MissingCertificateAlwaysSelected(config: AcmeConfig, disk: Disk, now: int, domain: string)
    requires domain in config.domains
    requires CertificatePath(config.outCertificatePath, domain) !in disk
    ensures domain in Seqs.Filter(config.domains, Selects(disk, config.outCertificatePath, now))
  {
    Seqs.FilterMembership(config.domains, Selects(disk, config.outCertificatePath, now));
  }

  /** A configured domain with a readable certificate is selected exactly
      when strictly less than 30 days are left. */
  lemma SelectedIffLessThanThirtyDaysLeft(config: AcmeConfig, disk: Disk, now: int, domain: string, notAfter: int)
    requires domain in config.domains
    requires var p := CertificatePath(config.outCertificatePath, domain);
             p in disk && disk[p] == CertificatePem(notAfter)
    ensures domain in Seqs.Filter(config.domains, Selects(disk, config.outCertificatePath, now))
            <==> notAfter - now < 30 * TicksPerDay
  {
    Seqs.FilterMembership(config.domains, Selects(disk, config.outCertificatePath, now));
  }

  /** The boundary is strict: with exactly 30 days left the domain is kept
      out, one tick less and it is selected. */
  lemma ExactlyThirtyDaysIsNotDue(now: int)
    ensures !DueForRenewal(now + 30 * TicksPerDay, now)
    ensures DueForRenewal(now + 30 * TicksPerDay - 1, now)
  {
  }

  /** The folder consulted for a wildcard domain is its base domain. */
  lemma {:induction false} WildcardCertificatePath(root: string)
    ensures CertificatePath(root, "*.example.com") == FilePath(root, "example.com", CertificateFile)
  {
    Naming.WildcardFolderExample();
  }
}

=== FILE: issuance.dfy ===
/** Issuing the certificate for an order and saving it: a CSR whose common
    name is the given domain, then `fullchain.pem` and `privkey.pem` written
    in that order under `<root>/<domain>`. A failed write propagates and
    leaves whatever was already written in place.

    Key generation, the CSR and the download are foreign calls; an oracle
    says whether they produced a certificate (and its not-after time) and
    whether each file write went through.
 */
module Issuance {
  import opened Outcomes
  import opened CertStore
  import Naming
  import Expiry

  datatype Generated = Generated(notAfter: int) | GenerateFailed

  datatype IssueOracle = IssueOracle(generate: Generated, fullchainWritten: bool, privkeyWritten: bool)

  /** What issuance did: the common name it requested, the exception it
      let through (if any), and the certificate store afterwards. */
  datatype IssueResult = IssueResult(commonName: string, fault: Option<Fault>, disk: Disk)

  /** The saving sequence shared by both definitions below: the certificate
      file first, then the key file holding `keyBlob`. The first failed
      write throws, naming its file, and stops the sequence. */
  function Save(disk: Disk, root: string, folder: string, notAfter: int, keyBlob: Blob, oracle: IssueOracle)
    : (r: (Option<Fault>, Disk))
    ensures r.0.None? <==> oracle.fullchainWritten && oracle.privkeyWritten
    ensures r.0.Some? ==>
              r.0.value == CertificateWriteFailed(if oracle.fullchainWritten then PrivateKeyFile else CertificateFile)
    ensures !oracle.fullchainWritten ==> r.1 == disk
    ensures oracle.fullchainWritten ==>
              FilePath(root, folder, CertificateFile) in r.1
              && r.1[FilePath(root, folder, CertificateFile)] == CertificatePem(notAfter)
    ensures r.0.None? ==>
              FilePath(root, folder, PrivateKeyFile) in r.1 && r.1[FilePath(root, folder, PrivateKeyFile)] == keyBlob
  {
    var fullchain := FilePath(root, folder, CertificateFile);
    var privkey := FilePath(root, folder, PrivateKeyFile);
    if !oracle.fullchainWritten then (Some(CertificateWriteFailed(CertificateFile)), disk)
    else
      var written := disk[fullchain := CertificatePem(notAfter)];
      if !oracle.privkeyWritten then (Some(CertificateWriteFailed(PrivateKeyFile)), written)
      else (None, written[privkey := keyBlob])
  }

  /** Issuance as written: the folder is the domain verbatim (a wildcard
      keeps its `*.`), and the key file receives the certificate PEM. */
  function IssueCertificate(disk: Disk, root: string, domain: string, oracle: IssueOracle): (r: IssueResult)
    ensures r.commonName == domain
    ensures oracle.generate.GenerateFailed? ==> r.fault == Some(CertificateGenerationFailed) && r.disk == disk
    ensures r.fault.None? <==> oracle.generate.Generated? && oracle.fullchainWritten && oracle.privkeyWritten
    ensures r.fault.None? ==>
              r.disk == disk[FilePath(root, domain, CertificateFile) := CertificatePem(oracle.generate.notAfter)]
                            [FilePath(root, domain, PrivateKeyFile) := CertificatePem(oracle.generate.notAfter)]
    ensures oracle.generate.Generated? && oracle.fullchainWritten && !oracle.privkeyWritten ==>
              r.disk == disk[FilePath(root, domain, CertificateFile) := CertificatePem(oracle.generate.notAfter)]
    ensures oracle.generate.Generated? && !oracle.fullchainWritten ==> r.disk == disk
  {
    match oracle.generate
    case GenerateFailed => IssueResult(domain, Some(CertificateGenerationFailed), disk)
    case Generated(notAfter) =>
      var (fault, written) := Save(disk, root, domain, notAfter, CertificatePem(notAfter), oracle);
      IssueResult(domain, fault, written)
  }

  /** Issuance as intended: the folder is the one the expiry scan reads, and
      the key file receives the private key. */
  function IssueCertificateIntended(disk: Disk, root: string, domain: string, oracle: IssueOracle)
    : (r: IssueResult)
    ensures r.commonName == domain
    ensures r.fault.None? <==> oracle.generate.Generated? && oracle.fullchainWritten && oracle.privkeyWritten
    ensures r.fault.None? ==>
              var folder := Naming.TrimLeadingWildcard(domain);
              r.disk == disk[FilePath(root, folder, CertificateFile) := CertificatePem(oracle.generate.notAfter)]
                            [FilePath(root, folder, PrivateKeyFile) := PrivateKeyPem]
  {
    match oracle.generate
    case GenerateFailed => IssueResult(domain, Some(CertificateGenerationFailed), disk)
    case Generated(notAfter) =>
      var (fault, written) := Save(disk, root, Naming.TrimLeadingWildcard(domain), notAfter, PrivateKeyPem, oracle);
      IssueResult(domain, fault, written)
  }

  // ---------------------------------------------------------------------------
  // Properties

  /** Saving writes no file but the two in the folder. */
  lemma {:induction false} SaveTouchesOnlyItsFiles(disk: Disk, root: string, folder: string, notAfter: int,
                                                   keyBlob: Blob, oracle: IssueOracle)
    ensures var after := Save(disk, root, folder, notAfter, keyBlob, oracle).1;
            && (forall p :: p in disk ==> p in after)
            && (forall p :: (p in after && p !in {FilePath(root, folder, CertificateFile),
                                                   FilePath(root, folder, PrivateKeyFile)})
                             ==> p in disk && after[p] == disk[p])
  {
  }

  /** As written, a successful issuance leaves the key file holding the
      certificate, never the private key. */
  lemma {:induction false} PrivateKeyFileHoldsCertificate(disk: Disk, root: string, domain: string, notAfter: int)
    ensures var r := IssueCertificate(disk, root, domain, IssueOracle(Generated(notAfter), true, true));
            var key := FilePath(root, domain, PrivateKeyFile);
            && r.fault == None && key in r.disk
            && r.disk[key] == CertificatePem(notAfter) && r.disk[key] != PrivateKeyPem
  {
  }

  /** As written, issuing for a wildcard writes a folder the expiry scan does
      not read. Take a store in which the root's folder named
      `*.example.com` already exists, holding an earlier certificate, and
      its folder named `example.com` is empty: after a successful issuance
      the wildcard is still selected for renewal. */
  lemma {:induction false} WildcardIssueNotSeenByScan(root: string, now: int, earlier: int, notAfter: int)
    ensures var disk := map[FilePath(root, "*.example.com", CertificateFile) := CertificatePem(earlier)];
            var r := IssueCertificate(disk, root, "*.example.com", IssueOracle(Generated(notAfter), true, true));
            r.fault == None && Expiry.NeedsRenewal(r.disk, root, now, "*.example.com")
  {
    Naming.WildcardFolderExample();
    assert "*.example.com" != "example.com";
  }

  /** Corrected round trip: after a successful issuance of a certificate
      with at least 30 days left, the scan reads it back for the same domain,
      wildcard or not, and does not select the domain. */
  lemma {:induction false} IssuedCertificateIsRead(disk: Disk, root: string, domain: string, notAfter: int,
                                                   now: int)
    requires notAfter - now >= RenewalWindow
    ensures var r := IssueCertificateIntended(disk, root, domain, IssueOracle(Generated(notAfter), true, true));
            && r.fault == None
            && Expiry.Inspect(r.disk, root, domain) == Expiry.ExpiresAt(notAfter)
            && !Expiry.NeedsRenewal(r.disk, root, now, domain)
            && r.disk[FilePath(root, Naming.TrimLeadingWildcard(domain), PrivateKeyFile)] == PrivateKeyPem
  {
    var r := IssueCertificateIntended(disk, root, domain, IssueOracle(Generated(notAfter), true, true));
    assert Expiry.CertificatePath(root, domain) == FilePath(root, Naming.TrimLeadingWildcard(domain), CertificateFile);
    assert CertificateFile != PrivateKeyFile;
  }
}

=== FILE: legacy_acme.dfy ===
/** The ACME service of the older job. It selects domains by asking the ACME
    server for the order behind each domain, not by reading certificate
    files, and it builds a flat challenge map keyed by a record name derived
    from the authorization's URL.
 */
module LegacyAcme {
  import opened Outcomes
  import opened CertStore
  import Naming
  import Seqs

  /** Order states of section 7.1.6 of RFC 8555. */
  datatype OrderStatus = Pending | Ready | Processing | Valid | Invalid

  /** The part of an order resource the selection reads. */
  datatype OrderResource = OrderResource(status: OrderStatus, expires: Option<int>)

  /** The service keeps its own copy of the configured domain list, taken
      once when it is constructed. */
  datatype LegacyAcmeService = LegacyAcmeService(domains: seq<string>)

  /** The ACME server's answer for the order behind each domain. A domain
      the map does not hold is a lookup that throws. */
  type Orders = map<string, OrderResource>

  /** A Valid order is due when its expiry is known and strictly less than
      30 days away. */
  predicate OrderDue(order: OrderResource, now: int) {
    order.status == Valid && order.expires.Some? && order.expires.value - now < RenewalWindow
  }

  function LegacySelects(orders: Orders, now: int): string -> bool {
    d => d in orders && OrderDue(orders[d], now)
  }

  /** The position of the first domain whose order lookup fails, or the
      number of domains when every lookup succeeds. */
  function FirstMissingOrder(orders: Orders, domains: seq<string>): (i: nat)
    ensures i <= |domains|
    ensures forall j :: 0 <= j < i ==> domains[j] in orders
    ensures i < |domains| ==> domains[i] !in orders
    decreases |domains|
  {
    if |domains| == 0 then 0
    else if domains[0] !in orders then 0
    else
      var rest := FirstMissingOrder(orders, domains[1..]);
      assert forall j :: 1 <= j <= rest ==> domains[j] == domains[1..][j - 1];
      1 + rest
  }

  /** What the legacy scan amounts to. */
  function LegacyExpiringDomains(service: LegacyAcmeService, orders: Orders, now: int): Result<seq<string>> {
    var i := FirstMissingOrder(orders, service.domains);
    if i < |service.domains| then Thrown(OrderLookupFailed(service.domains[i]))
    else Done(Seqs.Filter(service.domains, LegacySelects(orders, now)))
  }

  /** The legacy scan as the service runs it: one order lookup per domain in
      list order, skipping every order that is not Valid. */
  method GetExpiringDomainsLegacy(service: LegacyAcmeService, orders: Orders, now: int)
    returns (r: Result<seq<string>>)
    ensures r == LegacyExpiringDomains(service, orders, now)
  {
    var domains := service.domains;
    var selects := LegacySelects(orders, now);
    var expiring: seq<string> := [];
    var i := 0;
    while i < |domains|
      invariant 0 <= i <= |domains|
      invariant forall j :: 0 <= j < i ==> domains[j] in orders
      invariant expiring == Seqs.Filter(domains[..i], selects)
    {
      var domain := domains[i];
      if domain !in orders {
        assert FirstMissingOrder(orders, domains) == i;
        return Thrown(OrderLookupFailed(domain));
      }
      var order := orders[domain];
      Seqs.FilterPrefixStep(domains, i, selects);
      i := i + 1;
      if order.status != Valid {
        continue;
      }
      if order.expires.Some? && order.expires.value - now < RenewalWindow {
        expiring := expiring + [domain];
      }
    }
    assert domains[..i] == domains;
    assert FirstMissingOrder(orders, domains) == |domains|;
    r := Done(expiring);
  }

  // ---------------------------------------------------------------------------
  // Properties of the legacy selection

  /** A domain whose order is not Valid is never selected, so a domain
      without a live certificate is not renewed by this variant. */
  lemma {:induction false} NonValidOrderNeverSelected(service: LegacyAcmeService, orders: Orders, now: int,
                                                      domain: string)
    requires domain in orders && orders[domain].status != Valid
    ensures var r := LegacyExpiringDomains(service, orders, now);
            r.Done? ==> domain !in r.value
  {
    Seqs.FilterMembership(service.domains, LegacySelects(orders, now));
  }

  /** A configured domain with a Valid order is selected exactly when the
      order's expiry is present and strictly less than 30 days away. */
  lemma {:induction false} ValidOrderSelectedIff(service: LegacyAcmeService, orders: Orders, now: int,
                                                 domain: string)
    requires domain in service.domains
    requires domain in orders && orders[domain].status == Valid
    requires LegacyExpiringDomains(service, orders, now).Done?
    ensures domain in LegacyExpiringDomains(service, orders, now).value
            <==> orders[domain].expires.Some? && orders[domain].expires.value - now < 30 * TicksPerDay
  {
    Seqs.FilterMembership(service.domains, LegacySelects(orders, now));
  }

  /** The lookup that throws is the first one that fails, and the scan
      throws exactly when some lookup fails. */
  lemma LegacyScanThrowsIffLookupFails(service: LegacyAcmeService, orders: Orders, now: int)
    ensures LegacyExpiringDomains(service, orders, now).Thrown?
            <==> exists d :: d in service.domains && d !in orders
    ensures LegacyExpiringDomains(service, orders, now).Thrown? ==>
            exists i :: 0 <= i < |service.domains|
                        && LegacyExpiringDomains(service, orders, now).fault == OrderLookupFailed(service.domains[i])
                        && service.domains[i] !in orders
                        && forall j :: 0 <= j < i ==> service.domains[j] in orders
  {
  }

  /** The selection is an order-preserving sublist of the configured list. */
  lemma {:induction false} LegacySelectionIsSublist(service: LegacyAcmeService, orders: Orders, now: int)
    requires LegacyExpiringDomains(service, orders, now).Done?
    ensures Seqs.IsSubsequence(LegacyExpiringDomains(service, orders, now).value, service.domains)
  {
    Seqs.FilterIsSubsequence(service.domains, LegacySelects(orders, now));
  }

  // ---------------------------------------------------------------------------
  // The flat challenge map

  /** One authorization as the legacy map reads it: the host of the
      authorization's URL and the TXT value derived from its DNS challenge. */
  datatype LegacyAuthorization = LegacyAuthorization(locationHost: string, keyAuthorization: string)

  function LegacyRecordName(auth: LegacyAuthorization): string {
    Naming.ChallengeLabel + auth.locationHost
  }

  /** Assigning every authorization's value under its record name, in order:
      a later authorization with the same name overwrites an earlier one. */
  function LegacyChallengeMap(auths: seq<LegacyAuthorization>): (m: map<string, string>)
    ensures forall i :: 0 <= i < |auths| ==> LegacyRecordName(auths[i]) in m
    ensures forall k :: k in m ==> exists i :: 0 <= i < |auths| && LegacyRecordName(auths[i]) == k
    ensures |auths| > 0 ==> m[LegacyRecordName(auths[|auths| - 1])] == auths[|auths| - 1].keyAuthorization
    decreases |auths|
  {
    if |auths| == 0 then map[]
    else
      var init, last := auths[..|auths| - 1], auths[|auths| - 1];
      var m := LegacyChallengeMap(init);
      assert forall k :: k in m ==> exists i :: 0 <= i < |auths| && LegacyRecordName(auths[i]) == k by {
        forall k | k in m
          ensures exists i :: 0 <= i < |auths| && LegacyRecordName(auths[i]) == k
        {
          var i :| 0 <= i < |init| && LegacyRecordName(init[i]) == k;
          assert auths[i] == init[i];
        }
      }
      assert forall i :: 0 <= i < |init| ==> LegacyRecordName(auths[i]) in m by {
        forall i | 0 <= i < |init| ensures LegacyRecordName(auths[i]) in m {
          assert auths[i] == init[i];
        }
      }
      m[LegacyRecordName(last) := last.keyAuthorization]
  }

  /** The map never has more entries than there are authorizations. */
  lemma {:induction false} LegacyChallengeMapSize(auths: seq<LegacyAuthorization>)
    ensures |LegacyChallengeMap(auths)| <= |auths|
    decreases |auths|
  {
    if |auths| > 0 {
      var init, last := auths[..|auths| - 1], auths[|auths| - 1];
      LegacyChallengeMapSize(init);
      var m := LegacyChallengeMap(init);
      assert LegacyChallengeMap(auths).Keys <= m.Keys + {LegacyRecordName(last)};
      assert |m.Keys + {LegacyRecordName(last)}| <= |m.Keys| + 1;
    }
  }

  /** Each record name holds the value of the LAST authorization under it. */
  lemma {:induction false} LastWriterWins(auths: seq<LegacyAuthorization>, i: nat)
    requires i < |auths|
    requires forall j :: i < j < |auths| ==> LegacyRecordName(auths[j]) != LegacyRecordName(auths[i])
    ensures LegacyChallengeMap(auths)[LegacyRecordName(auths[i])] == auths[i].keyAuthorization
    decreases |auths|
  {
    if i < |auths| - 1 {
      var init := auths[..|auths| - 1];
      assert forall j :: 0 <= j < |init| ==> init[j] == auths[j];
      LastWriterWins(init, i);
    }
  }

  /** All authorizations of one order share the ACME server's host, so the
      whole order collapses into a single map entry holding the last value. */
  lemma {:induction false} SameHostCollapses(auths: seq<LegacyAuthorization>, host: string)
    requires |auths| > 0
    requires forall i :: 0 <= i < |auths| ==> auths[i].locationHost == host
    ensures LegacyChallengeMap(auths) == map[Naming.ChallengeLabel + host := auths[|auths| - 1].keyAuthorization]
  {
    var m := LegacyChallengeMap(auths);
    var k := Naming.ChallengeLabel + host;
    assert LegacyRecordName(auths[|auths| - 1]) == k;
    assert m.Keys == {k};
  }
}

=== FILE: legacy_dns.dfy ===
/** The older DNS service: clear, single add and filter-remove of TXT values,
    each addressing the record name as given. Write and delete outcomes are
    read from the response (`IsError`) rather than from an exception.
 */
module LegacyDns {
  import opened Outcomes
  import opened TxtZone
  import Seqs

  /** Clear: 404 on lookup is success without a delete; otherwise the whole
      record set is deleted and the result says whether the delete succeeded. */
  function Clear(zone: Zone, recordName: string, lookup: Reply, delete: Reply): (r: DnsResult<bool>)
    ensures r.Raised? <==> Fetch(zone, recordName, lookup).LookupFailed?
    ensures Fetch(zone, recordName, lookup).Missing? ==> r == Answer(true, zone)
    ensures Fetch(zone, recordName, lookup).Found? ==>
              r.Answer? && (r.value <==> delete == Delivered)
              && r.zone == (if delete == Delivered then zone - {recordName} else zone)
  {
    match Fetch(zone, recordName, lookup)
    case LookupFailed(status) => Raised(RequestFailed(status))
    case Missing => Answer(true, zone)
    case Found(_) =>
      if delete == Delivered then Answer(true, zone - {recordName}) else Answer(false, zone)
  }

  /** The test that keeps every value other than `value`. */
  function Other(value: string): string -> bool {
    v => v != value
  }

  /** One entry without the removed value: the others stay, in order and
      with their multiplicities. */
  function RemoveFromEntry(entry: seq<string>, value: string): (r: seq<string>)
    ensures value !in r
    ensures value !in entry ==> r == entry
    ensures forall v :: v in r <==> v in entry && v != value
    ensures Seqs.IsSubsequence(r, entry)
    ensures forall v :: multiset(r)[v] == if v == value then 0 else multiset(entry)[v]
  {
    var r := Seqs.Filter(entry, Other(value));
    Seqs.FilterMembership(entry, Other(value));
    Seqs.FilterIsSubsequence(entry, Other(value));
    Seqs.FilterCount(entry, Other(value));
    assert value !in entry ==> r == entry by {
      if value !in entry {
        FilterKeepsEntry(entry, value);
      }
    }
    r
  }

  lemma {:induction false} FilterKeepsEntry(entry: seq<string>, value: string)
    requires value !in entry
    ensures Seqs.Filter(entry, Other(value)) == entry
    decreases |entry|
  {
    if |entry| > 0 {
      var init, last := entry[..|entry| - 1], entry[|entry| - 1];
      assert entry == init + [last];
      assert value !in init;
      assert Other(value)(last);
      FilterKeepsEntry(init, value);
    }
  }

  /** Every entry loses the removed value; entries left empty are dropped,
      so no entry of the result is empty. */
  function FilterEntries(entries: seq<seq<string>>, value: string): (r: seq<seq<string>>)
    ensures |r| <= |entries|
    ensures forall i :: 0 <= i < |r| ==> r[i] != []
  {
    if |entries| == 0 then []
    else
      var kept := RemoveFromEntry(entries[|entries| - 1], value);
      FilterEntries(entries[..|entries| - 1], value) + (if kept != [] then [kept] else [])
  }

  /** Each entry with the removed value filtered out, empty entries kept. */
  function Stripped(entries: seq<seq<string>>, value: string): (r: seq<seq<string>>)
    ensures |r| == |entries|
  {
    seq(|entries|, i requires 0 <= i < |entries| => RemoveFromEntry(entries[i], value))
  }

  function NonEmpty(): seq<string> -> bool {
    e => e != []
  }

  lemma StrippedSnoc(entries: seq<seq<string>>, value: string)
    requires |entries| > 0
    ensures Stripped(entries, value)
            == Stripped(entries[..|entries| - 1], value) + [RemoveFromEntry(entries[|entries| - 1], value)]
  {
    var init := entries[..|entries| - 1];
    var a := Stripped(entries, value);
    var b := Stripped(init, value) + [RemoveFromEntry(entries[|entries| - 1], value)];
    forall i | 0 <= i < |a|
      ensures a[i] == b[i]
    {
      if i < |init| {
        assert init[i] == entries[i];
      }
    }
  }

  /** The surviving entries are exactly the stripped entries that are not
      empty, in their old order: an entry left empty is dropped, and every
      other entry is kept as its own entry, merely without the value. */
  lemma {:induction false} FilterEntriesDropsOnlyEmptied(entries: seq<seq<string>>, value: string)
    ensures FilterEntries(entries, value) == Seqs.Filter(Stripped(entries, value), NonEmpty())
    decreases |entries|
  {
    if |entries| > 0 {
      var init, last := entries[..|entries| - 1], entries[|entries| - 1];
      FilterEntriesDropsOnlyEmptied(init, value);
      StrippedSnoc(entries, value);
      Seqs.FilterSnoc(Stripped(init, value), RemoveFromEntry(last, value), NonEmpty());
    }
  }

  /** The surviving values are the old ones without the removed value, in order. */
  lemma {:induction false} FilterEntriesValues(entries: seq<seq<string>>, value: string)
    ensures Seqs.Flatten(FilterEntries(entries, value)) == Seqs.Filter(Seqs.Flatten(entries), Other(value))
    decreases |entries|
  {
    if |entries| > 0 {
      var init, last := entries[..|entries| - 1], entries[|entries| - 1];
      var kept := RemoveFromEntry(last, value);
      var head := FilterEntries(init, value);
      var tail: seq<seq<string>> := if kept != [] then [kept] else [];
      assert Seqs.Flatten(tail) == kept by {
        if kept != [] {
          assert tail[..0] == [];
        }
      }
      calc {
        Seqs.Flatten(FilterEntries(entries, value));
        Seqs.Flatten(head + tail);
        { Seqs.FlattenAppend(head, tail); }
        Seqs.Flatten(head) + kept;
        { FilterEntriesValues(init, value); }
        Seqs.Filter(Seqs.Flatten(init), Other(value)) + Seqs.Filter(last, Other(value));
        { FilterFlattenSnoc(init, last, value); assert init + [last] == entries; }
        Seqs.Filter(Seqs.Flatten(entries), Other(value));
      }
    }
  }

  /** The entry count stays the same exactly when no entry is emptied, and
      then every entry has merely lost the removed value. */
  lemma {:induction false} FilterEntriesCount(entries: seq<seq<string>>, value: string)
    ensures |FilterEntries(entries, value)| == |entries|
            <==> forall i :: 0 <= i < |entries| ==> RemoveFromEntry(entries[i], value) != []
    ensures |FilterEntries(entries, value)| == |entries| ==>
              forall i :: 0 <= i < |entries| ==> FilterEntries(entries, value)[i] == RemoveFromEntry(entries[i], value)
    decreases |entries|
  {
    if |entries| > 0 {
      var init, last := entries[..|entries| - 1], entries[|entries| - 1];
      FilterEntriesCount(init, value);
      var head := FilterEntries(init, value);
      var kept := RemoveFromEntry(last, value);
      var r := FilterEntries(entries, value);
      assert r == head + (if kept != [] then [kept] else []);
      if kept == [] {
        assert |r| < |entries|;
        assert RemoveFromEntry(entries[|entries| - 1], value) == [];
      } else if |head| == |init| {
        forall i | 0 <= i < |entries|
          ensures r[i] == RemoveFromEntry(entries[i], value)
        {
          if i < |init| {
            assert entries[i] == init[i];
          }
        }
      } else {
        var j :| 0 <= j < |init| && RemoveFromEntry(init[j], value) == [];
        assert entries[j] == init[j];
      }
    }
  }

  lemma {:induction false} FilterFlattenSnoc(init: seq<seq<string>>, last: seq<string>, value: string)
    ensures Seqs.Filter(Seqs.Flatten(init + [last]), Other(value))
            == Seqs.Filter(Seqs.Flatten(init), Other(value)) + Seqs.Filter(last, Other(value))
  {
    assert (init + [last])[..|init|] == init;
    assert Seqs.Flatten(init + [last]) == Seqs.Flatten(init) + last;
    FilterConcat(Seqs.Flatten(init), last, Other(value));
  }

  lemma {:induction false} FilterConcat(a: seq<string>, b: seq<string>, p: string -> bool)
    ensures Seqs.Filter(a + b, p) == Seqs.Filter(a, p) + Seqs.Filter(b, p)
    decreases |b|
  {
    if |b| == 0 {
      assert a + b == a;
    } else {
      var b', x := b[..|b| - 1], b[|b| - 1];
      assert a + b == (a + b') + [x];
      assert b == b' + [x];
      Seqs.FilterSnoc(a + b', x, p);
      Seqs.FilterSnoc(b', x, p);
      FilterConcat(a, b', p);
    }
  }

  /** Remove as written: 404 returns true untouched; otherwise a write
      happens only when the filtered list has fewer entries than before, and
      the written data holds the surviving entries and no TTL. */
  function Remove(zone: Zone, recordName: string, value: string, lookup: Reply, write: Reply)
    : (r: DnsResult<bool>)
    ensures r.Raised? <==> Fetch(zone, recordName, lookup).LookupFailed?
    ensures Fetch(zone, recordName, lookup).Missing? ==> r == Answer(true, zone)
    ensures var found := Fetch(zone, recordName, lookup);
            found.Found? ==>
              var survivors := FilterEntries(found.recordSet.entries, value);
              if |survivors| == |found.recordSet.entries| then r == Answer(true, zone)
              else r.Answer? && (r.value <==> write == Delivered)
                   && r.zone == (if write == Delivered then zone[recordName := TxtRecordSet(None, survivors)]
                                 else zone)
  {
    match Fetch(zone, recordName, lookup)
    case LookupFailed(status) => Raised(RequestFailed(status))
    case Missing => Answer(true, zone)
    case Found(recordSet) =>
      var survivors := FilterEntries(recordSet.entries, value);
      if |survivors| == |recordSet.entries| then Answer(true, zone)
      else if write == Delivered then Answer(true, zone[recordName := TxtRecordSet(None, survivors)])
      else Answer(false, zone)
  }

  /** Single add as written: the looked-up record set is dereferenced even
      when the lookup found nothing, so adding to a missing name throws. An
      existing set gets one more single-value entry, with no duplicate check. */
  function Add(zone: Zone, recordName: string, value: string, lookup: Reply, write: Reply)
    : (r: DnsResult<bool>)
    ensures r.Raised? <==> !Fetch(zone, recordName, lookup).Found?
    ensures Fetch(zone, recordName, lookup).Missing? ==> r == Raised(NullReference)
    ensures var found := Fetch(zone, recordName, lookup);
            found.Found? ==> r.Answer? && (r.value <==> write == Delivered)
                             && r.zone == (if write == Delivered
                                           then zone[recordName := found.recordSet.(entries := found.recordSet.entries + [[value]])]
                                           else zone)
  {
    match Fetch(zone, recordName, lookup)
    case LookupFailed(status) => Raised(RequestFailed(status))
    case Missing => Raised(NullReference)
    case Found(recordSet) =>
      if write == Delivered then Answer(true, zone[recordName := recordSet.(entries := recordSet.entries + [[value]])])
      else Answer(false, zone)
  }

  // ---------------------------------------------------------------------------
  // Properties

  /** After a persisted removal the name keeps every other value, in order,
      and no longer holds the removed one. */
  lemma RemovePersistedDropsValue(zone: Zone, recordName: string, value: string)
    requires recordName in zone
    requires |FilterEntries(zone[recordName].entries, value)| < |zone[recordName].entries|
    ensures var r := Remove(zone, recordName, value, Delivered, Delivered);
            && r.Answer? && r.value && recordName in r.zone
            && Values(r.zone[recordName]) == Seqs.Filter(Values(zone[recordName]), Other(value))
            && value !in Values(r.zone[recordName])
            && r.zone[recordName].ttl == None
  {
    FilterEntriesValues(zone[recordName].entries, value);
    Seqs.FilterMembership(Values(zone[recordName]), Other(value));
  }

  /** After a delivered clear the name is gone, and clearing again finds
      nothing and changes nothing. */
  lemma {:induction false} ClearRemovesName(zone: Zone, recordName: string)
    ensures var once := Clear(zone, recordName, Delivered, Delivered);
            && once == Answer(true, zone - {recordName})
            && Fetch(once.zone, recordName, Delivered) == Missing
            && Clear(once.zone, recordName, Delivered, Delivered) == once
  {
    if recordName !in zone {
      assert zone - {recordName} == zone;
    }
  }

  /** Adding the same value twice keeps both copies. */
  lemma {:induction false} AddDoesNotDeduplicate(zone: Zone, recordName: string, value: string)
    requires recordName in zone
    ensures var once := Add(zone, recordName, value, Delivered, Delivered);
            var twice := Add(once.zone, recordName, value, Delivered, Delivered);
            && twice.Answer? && recordName in twice.zone
            && twice.zone[recordName].entries == zone[recordName].entries + [[value], [value]]
            && Values(twice.zone[recordName]) == Values(zone[recordName]) + [value, value]
  {
    var e := zone[recordName].entries;
    assert e + [[value]] + [[value]] == e + [[value], [value]];
    Seqs.FlattenAppend(e, [[value], [value]]);
    assert [[value], [value]][..1] == [[value]];
  }

  /** Finding, as written: removing one value of a two-value entry drops no
      entry, so nothing is written and the value is still published, yet the
      call returns true. */
  lemma MultiValueRemovalNotPersisted()
    ensures var zone := map["_acme-challenge" := TxtRecordSet(Some(60), [["a", "b"]])];
            var r := Remove(zone, "_acme-challenge", "a", Delivered, Delivered);
            && r == Answer(true, zone)
            && "a" in Values(r.zone["_acme-challenge"])
  {
    var zone := map["_acme-challenge" := TxtRecordSet(Some(60), [["a", "b"]])];
    var e: seq<seq<string>> := [["a", "b"]];
    assert "b" in RemoveFromEntry(["a", "b"], "a");
    assert FilterEntries(e, "a") == FilterEntries([], "a") + [RemoveFromEntry(["a", "b"], "a")];
    assert |FilterEntries(e, "a")| == |e|;
    assert "a" in e[0];
  }

  /** The evident intent: write whenever any value was actually removed. */
  function RemoveIntended(zone: Zone, recordName: string, value: string, lookup: Reply, write: Reply)
    : (r: DnsResult<bool>)
    ensures r.Raised? <==> Fetch(zone, recordName, lookup).LookupFailed?
    ensures Fetch(zone, recordName, lookup).Missing? ==> r == Answer(true, zone)
    ensures var found := Fetch(zone, recordName, lookup);
            found.Found? && value !in Values(found.recordSet) ==> r == Answer(true, zone)
    ensures var found := Fetch(zone, recordName, lookup);
            found.Found? && value in Values(found.recordSet) ==>
              r == if write == Delivered
                   then Answer(true, zone[recordName := TxtRecordSet(None, FilterEntries(found.recordSet.entries, value))])
                   else Answer(false, zone)
  {
    match Fetch(zone, recordName, lookup)
    case LookupFailed(status) => Raised(RequestFailed(status))
    case Missing => Answer(true, zone)
    case Found(recordSet) =>
      if value !in Values(recordSet) then Answer(true, zone)
      else
        var survivors := FilterEntries(recordSet.entries, value);
        if write == Delivered then Answer(true, zone[recordName := TxtRecordSet(None, survivors)])
      else Answer(false, zone)
  }

  /** With the corrected test, a successful removal never leaves the value
      published under the name: the name keeps every other value, in order,
      and no other name changes. */
  lemma {:induction false} RemoveIntendedDropsValue(zone: Zone, recordName: string, value: string)
    ensures var r := RemoveIntended(zone, recordName, value, Delivered, Delivered);
            && r.Answer? && r.value
            && (recordName in r.zone ==> value !in Values(r.zone[recordName]))
            && (recordName in zone <==> recordName in r.zone)
            && (recordName in zone ==>
                  Values(r.zone[recordName]) == Seqs.Filter(Values(zone[recordName]), Other(value)))
            && (forall n :: n in zone && n != recordName ==> n in r.zone && r.zone[n] == zone[n])
            && (forall n :: n in r.zone ==> n in zone)
  {
    if recordName in zone && value !in Values(zone[recordName]) {
      FilterKeepsEntry(Values(zone[recordName]), value);
    }
    if recordName in zone && value in Values(zone[recordName]) {
      var survivors := FilterEntries(zone[recordName].entries, value);
      FilterEntriesValues(zone[recordName].entries, value);
      Seqs.FilterMembership(Values(zone[recordName]), Other(value));
      assert value !in Seqs.Flatten(survivors);
    }
  }

  /** The evident intent of the single add: a missing name gets a new TTL-60
      record set instead of a null dereference. */
  function AddIntended(zone: Zone, recordName: string, value: string, lookup: Reply, write: Reply)
    : (r: DnsResult<bool>)
    ensures r.Raised? <==> Fetch(zone, recordName, lookup).LookupFailed?
    ensures r.Answer? && write == Delivered ==>
              r.value && recordName in r.zone && value in Values(r.zone[recordName])
    ensures r.Answer? && write.Failed? ==> r == Answer(false, zone)
    ensures r.Answer? && write == Delivered && Fetch(zone, recordName, lookup).Found? ==>
              && r.zone[recordName].ttl == zone[recordName].ttl
              && r.zone[recordName].entries == zone[recordName].entries + [[value]]
    ensures r.Answer? && write == Delivered && Fetch(zone, recordName, lookup).Missing? ==>
              r.zone[recordName] == TxtRecordSet(Some(DefaultTtlSeconds), [[value]])
    ensures r.Answer? ==>
              && (forall n :: n in zone ==> n in r.zone)
              && (forall n :: n in r.zone && n != recordName ==> n in zone && r.zone[n] == zone[n])
  {
    var found := Fetch(zone, recordName, lookup);
    if found.LookupFailed? then Raised(RequestFailed(found.status))
    else
      var base := if found.Found? then found.recordSet else TxtRecordSet(Some(DefaultTtlSeconds), []);
      var updated := base.(entries := base.entries + [[value]]);
      assert [value] in updated.entries;
      if write == Delivered then Answer(true, zone[recordName := updated]) else Answer(false, zone)
  }

  /** Finding, as written: the single add throws on a missing name, where
      the intended add creates the record set. */
  lemma AddToMissingNameThrows(zone: Zone, recordName: string, value: string)
    requires recordName !in zone
    ensures Add(zone, recordName, value, Delivered, Delivered) == Raised(NullReference)
    ensures var r := AddIntended(zone, recordName, value, Delivered, Delivered);
            r.Answer? && recordName in r.zone && Values(r.zone[recordName]) == [value]
            && r.zone[recordName].ttl == Some(DefaultTtlSeconds)
  {
    assert Seqs.Flatten([[value]]) == Seqs.Flatten([]) + [value];
  }
}

=== FILE: naming.dfy ===
/** Naming rules shared by the expiry check, challenge grouping and the DNS
    service: the certificate folder and DNS-01 record name derived from a
    domain, and the zone-relative form of a fully qualified record name.

    The record name `_acme-challenge.<base>` is the one section 8.4 of
    RFC 8555 prescribes; a wildcard authorization carries the base domain
    (section 7.1.4 of RFC 8555), so stripping the `*.` marker makes an apex
    and its wildcard share one name.
 */
module Naming {

  /** The label every DNS-01 record name starts with. */
  const ChallengeLabel: string := "_acme-challenge."

  /** The characters `TrimStart('*', '.')` removes. */
  predicate IsWildcardMarker(c: char) {
    c == '*' || c == '.'
  }

  /** The domain without its whole leading run of `*` and `.` characters:
      the certificate folder name, and the base of the record name. */
  function TrimLeadingWildcard(domain: string): (r: string)
    ensures |r| <= |domain|
    ensures |r| == 0 || !IsWildcardMarker(r[0])
    ensures |domain| > 0 && !IsWildcardMarker(domain[0]) ==> r == domain
  {
    if |domain| > 0 && IsWildcardMarker(domain[0]) then TrimLeadingWildcard(domain[1..])
    else domain
  }

  /** The trim removes exactly the leading run of markers: what is left is a
      suffix of the domain, everything cut off is a marker, and what is left
      does not start with one. */
  lemma {:induction false} TrimShape(domain: string)
    ensures var r := TrimLeadingWildcard(domain);
            && r == domain[|domain| - |r|..]
            && (forall i :: 0 <= i < |domain| - |r| ==> IsWildcardMarker(domain[i]))
            && (|r| == 0 || !IsWildcardMarker(r[0]))
    decreases |domain|
  {
    if |domain| > 0 && IsWildcardMarker(domain[0]) {
      TrimShape(domain[1..]);
    }
  }

  /** The DNS-01 record name for an authorization identifier. */
  function ChallengeRecordName(identifier: string): (r: string)
    ensures |r| >= |ChallengeLabel| && r[..|ChallengeLabel|] == ChallengeLabel
    ensures r[|ChallengeLabel|..] == TrimLeadingWildcard(identifier)
  {
    ChallengeLabel + TrimLeadingWildcard(identifier)
  }

  /** A prefix made only of markers is invisible to the trim. */
  lemma {:induction false} TrimIgnoresMarkerPrefix(prefix: string, domain: string)
    requires forall i :: 0 <= i < |prefix| ==> IsWildcardMarker(prefix[i])
    ensures TrimLeadingWildcard(prefix + domain) == TrimLeadingWildcard(domain)
    decreases |prefix|
  {
    if |prefix| > 0 {
      var whole := prefix + domain;
      assert whole[0] == prefix[0];
      assert whole[1..] == prefix[1..] + domain;
      TrimIgnoresMarkerPrefix(prefix[1..], domain);
      assert TrimLeadingWildcard(whole) == TrimLeadingWildcard(whole[1..]);
    } else {
      assert prefix + domain == domain;
    }
  }

  /** Trimming twice is trimming once. */
  lemma {:induction false} TrimIdempotent(domain: string)
    ensures TrimLeadingWildcard(TrimLeadingWildcard(domain)) == TrimLeadingWildcard(domain)
  {
    TrimShape(domain);
  }

  /** Two identifiers share a record name exactly when their trimmed forms agree. */
  lemma RecordNameSharedIff(a: string, b: string)
    ensures ChallengeRecordName(a) == ChallengeRecordName(b)
            <==> TrimLeadingWildcard(a) == TrimLeadingWildcard(b)
  {
    if ChallengeRecordName(a) == ChallengeRecordName(b) {
      assert ChallengeRecordName(a)[|ChallengeLabel|..] == ChallengeRecordName(b)[|ChallengeLabel|..];
    }
  }

  /** An apex domain and its wildcard map to one record name. */
  lemma {:induction false} WildcardSharesApexRecordName(apex: string)
    ensures ChallengeRecordName("*." + apex) == ChallengeRecordName(apex)
  {
    TrimIgnoresMarkerPrefix("*.", apex);
  }

  lemma {:induction false} WildcardFolderExample()
    ensures TrimLeadingWildcard("*.example.com") == "example.com"
  {
    var apex := "example.com";
    assert !IsWildcardMarker(apex[0]);
    assert TrimLeadingWildcard(apex) == apex;
    TrimIgnoresMarkerPrefix("*.", apex);
    assert forall i :: 0 <= i < |"*.example.com"| ==> ("*." + apex)[i] == "*.example.com"[i];
  }

  // ---------------------------------------------------------------------------
  // Zone-relative record names

  /** Upper-case mapping of the ASCII letters `a` to `z`; every other
      character is left as it is. */
  function UpperAscii(c: char): char {
    if 'a' <= c <= 'z' then (c as int - 32) as char else c
  }

  predicate EqualsIgnoreCase(a: string, b: string) {
    |a| == |b| && forall i :: 0 <= i < |a| ==> UpperAscii(a[i]) == UpperAscii(b[i])
  }

  /** `s.EndsWith(suffix, StringComparison.OrdinalIgnoreCase)`. */
  predicate EndsWithIgnoreCase(s: string, suffix: string) {
    |suffix| <= |s| && EqualsIgnoreCase(s[|s| - |suffix|..], suffix)
  }

  /** The suffix test does not depend on the case of the suffix. */
  lemma {:induction false} EndsWithIgnoresSuffixCase(s: string, suffix: string, other: string)
    requires EqualsIgnoreCase(suffix, other)
    ensures EndsWithIgnoreCase(s, suffix) <==> EndsWithIgnoreCase(s, other)
  {
    if |suffix| <= |s| {
      var tail := s[|s| - |suffix|..];
      assert forall i :: 0 <= i < |suffix| ==> tail[i] == s[|s| - |suffix| + i];
    }
  }

  /** A name made of any prefix followed by the zone name ends with it. */
  lemma {:induction false} EndsWithItsSuffix(prefix: string, suffix: string)
    ensures EndsWithIgnoreCase(prefix + suffix, suffix)
  {
    var s := prefix + suffix;
    assert s[|s| - |suffix|..] == suffix;
  }

  /** The string without its trailing run of `.` characters. */
  function TrimTrailingDots(s: string): (r: string)
    ensures |r| <= |s|
    ensures |r| == 0 || r[|r| - 1] != '.'
    ensures |s| > 0 && s[|s| - 1] != '.' ==> r == s
  {
    if |s| > 0 && s[|s| - 1] == '.' then TrimTrailingDots(s[..|s| - 1]) else s
  }

  /** The trim removes exactly the trailing run of dots: what is left is a
      prefix, everything cut off is a dot, and what is left does not end
      with one. */
  lemma {:induction false} TrimTrailingDotsShape(s: string)
    ensures var r := TrimTrailingDots(s);
            && r == s[..|r|]
            && (forall i :: |r| <= i < |s| ==> s[i] == '.')
            && (|r| == 0 || r[|r| - 1] != '.')
    decreases |s|
  {
    if |s| > 0 && s[|s| - 1] == '.' {
      TrimTrailingDotsShape(s[..|s| - 1]);
    }
  }

  /** The record name relative to the zone: when the name ends with the zone
      name (ignoring case, with no label-boundary check) that suffix is cut off
      and then every trailing dot; otherwise the name is returned unchanged. */
  function RelativeRecordName(fullName: string, zoneName: string): (r: string)
    ensures |r| <= |fullName|
    ensures !EndsWithIgnoreCase(fullName, zoneName) ==> r == fullName
  {
    if EndsWithIgnoreCase(fullName, zoneName) then
      TrimTrailingDots(fullName[..|fullName| - |zoneName|])
    else fullName
  }

  /** A name in the zone loses the zone suffix and then every dot before it;
      what is left is a prefix of the name that does not end with a dot. */
  lemma {:induction false} RelativeRecordNameShape(fullName: string, zoneName: string)
    requires EndsWithIgnoreCase(fullName, zoneName)
    ensures var r := RelativeRecordName(fullName, zoneName);
            && |r| <= |fullName| - |zoneName|
            && r == fullName[..|r|]
            && (forall i :: |r| <= i < |fullName| - |zoneName| ==> fullName[i] == '.')
            && (|r| == 0 || r[|r| - 1] != '.')
  {
    var head := fullName[..|fullName| - |zoneName|];
    TrimTrailingDotsShape(head);
    var r := TrimTrailingDots(head);
    assert forall i :: 0 <= i < |head| ==> head[i] == fullName[i];
  }

  /** A name inside the zone loses the zone suffix and the separating dot,
      whatever the case of the zone suffix. */
  lemma ChallengeNameInZoneExample()
    ensures RelativeRecordName("_acme-challenge.example.com", "example.com") == "_acme-challenge"
    ensures RelativeRecordName("_acme-challenge.EXAMPLE.com", "example.com") == "_acme-challenge"
  {
    var t := "_acme-challenge.";
    assert t[..15] == "_acme-challenge";
    assert TrimTrailingDots(t) == TrimTrailingDots(t[..15]);
    assert t[..15][14] == 'e';
    var lower, upper := "_acme-challenge.example.com", "_acme-challenge.EXAMPLE.com";
    assert lower[16..] == "example.com" && upper[16..] == "EXAMPLE.com";
    assert EqualsIgnoreCase(lower[16..], "example.com");
    assert EqualsIgnoreCase(upper[16..], "example.com");
    assert lower[..16] == t && upper[..16] == t;
  }

  /** The suffix test has no label boundary: a lookalike name is cut too. */
  lemma LookalikeNameExample()
    ensures RelativeRecordName("badexample.com", "example.com") == "bad"
  {
    var full := "badexample.com";
    assert full[3..] == "example.com";
    assert EqualsIgnoreCase(full[3..], "example.com");
    assert full[..3] == "bad";
    assert TrimTrailingDots("bad") == "bad";
  }

  /** The zone apex itself becomes the empty relative name. */
  lemma ZoneApexExample()
    ensures RelativeRecordName("example.com", "example.com") == ""
  {
    var full := "example.com";
    assert full[0..] == full;
    assert EqualsIgnoreCase(full, "example.com");
    assert full[..0] == "";
  }

}

=== FILE: outcomes.dfy ===
/** Failure-carrying values shared by every part of the renewal job.

    The job signals failure with .NET exceptions. Here an exception is a value:
    an operation either returns (`Done`) or throws (`Thrown`) one of the
    `Fault`s below, and the caller decides whether to propagate or catch it.
 */
module Outcomes {

  /** The conventional Some/None datatype, used for nullable values. */
  datatype Option<+T> = None | Some(value: T)

  /** The exceptions the modelled code can raise or let through. */
  datatype Fault =
    | RequestFailed(status: int)          // an Azure request failed with this HTTP status
    | NullReference                       // a missing record set was dereferenced
    | CertificateUnreadable(domain: string) // a certificate file could not be parsed
    | OrderLookupFailed(domain: string)   // the legacy per-domain order fetch failed
    | OrderRejected                       // opening the ACME order or listing its authorizations failed
    | ChallengeCallFailed                 // a Validate or status read on a challenge failed
    | CertificateGenerationFailed         // finalising the order (CSR, download) failed
    | CertificateWriteFailed(file: string) // writing an issued file failed

  /** The result of an operation that may throw. */
  datatype Result<+T> = Done(value: T) | Thrown(fault: Fault)
}

=== FILE: poll.dfy ===
/** The bounded poll over one group's challenges. Each attempt asks the server
    to validate every challenge and reads back its status; the attempt
    passes when every status is present and not Invalid. At most 10 attempts
    are made, with a one-second wait after each one that does not pass.

    The server is an oracle: `probe(attempt, index)` is what the
    validate-then-read exchange for challenge `index` yields on attempt
    `attempt`.
 */
module Poll {
  import opened Outcomes

  /** Challenge states of section 7.1.6 of RFC 8555. */
  datatype ChallengeStatus = Pending | Processing | Valid | Invalid

  /** One validate-then-read exchange: the status the challenge resource
      reports (absent when it carries none), or a call that threw. */
  datatype Probe = Observed(status: Option<ChallengeStatus>) | ProbeFailed

  type Prober = (nat, nat) -> Probe

  const MaxAttempts: nat := 10

  datatype AttemptOutcome = Accepted | Rejected | Broken

  /** How a poll ended: it passed, it ran out of attempts, it was aborted by
      an exception, or (only in the corrected poll) a challenge was refused. */
  datatype Verdict = Passed | TimedOut | Aborted | Refused

  /** The verdict with the number of attempts made and waits taken. */
  datatype PollResult = PollResult(verdict: Verdict, attempts: nat, waits: nat)

  // ---------------------------------------------------------------------------
  // One attempt

  /** The check the job applies to each status: present and not Invalid. */
  predicate Passes(status: Option<ChallengeStatus>) {
    status.Some? && status.value != Invalid
  }

  predicate AnyFailed(probe: Prober, attempt: nat, count: nat) {
    exists k :: 0 <= k < count && probe(attempt, k).ProbeFailed?
  }

  /** What an attempt over `count` challenges amounts to. */
  function Attempt(probe: Prober, attempt: nat, count: nat): AttemptOutcome {
    if AnyFailed(probe, attempt, count) then Broken
    else if forall k :: 0 <= k < count ==> Passes(probe(attempt, k).status) then Accepted
    else Rejected
  }

  /** One attempt as the job runs it: validate and read every challenge in
      order, collecting the statuses, then scan them for the first one that
      fails the check. */
  method RunAttempt(probe: Prober, attempt: nat, count: nat) returns (outcome: AttemptOutcome)
    ensures outcome == Attempt(probe, attempt, count)
  {
    var statuses: seq<Option<ChallengeStatus>> := [];
    var k := 0;
    while k < count
      invariant 0 <= k <= count && |statuses| == k
      invariant forall j :: 0 <= j < k ==> probe(attempt, j).Observed? && statuses[j] == probe(attempt, j).status
    {
      var exchange := probe(attempt, k);
      if exchange.ProbeFailed? {
        return Broken;
      }
      statuses := statuses + [exchange.status];
      k := k + 1;
    }
    var isValid := true;
    var j := 0;
    while j < |statuses|
      invariant 0 <= j <= |statuses|
      invariant isValid
      invariant forall i :: 0 <= i < j ==> Passes(statuses[i])
    {
      if !Passes(statuses[j]) {
        isValid := false;
        break;
      }
      j := j + 1;
    }
    outcome := if isValid then Accepted else Rejected;
  }

  // ---------------------------------------------------------------------------
  // The poll

  /** Reference: polling from attempt `k` on. The first attempt that is not
      rejected decides; a rejected attempt is followed by one wait. */
  function PollFrom(probe: Prober, count: nat, k: nat): (r: PollResult)
    requires k <= MaxAttempts
    ensures r.attempts <= MaxAttempts - k
    ensures r.verdict == Passed || r.verdict == TimedOut || r.verdict == Aborted
    ensures r.verdict == TimedOut ==> r.attempts == MaxAttempts - k && r.waits == r.attempts
    ensures r.verdict != TimedOut ==> r.attempts >= 1 && r.waits == r.attempts - 1
    decreases MaxAttempts - k
  {
    if k == MaxAttempts then PollResult(TimedOut, 0, 0)
    else
      match Attempt(probe, k, count)
      case Accepted => PollResult(Passed, 1, 0)
      case Broken => PollResult(Aborted, 1, 0)
      case Rejected =>
        var rest := PollFrom(probe, count, k + 1);
        PollResult(rest.verdict, rest.attempts + 1, rest.waits + 1)
  }

  /** A poll that times out was rejected on every attempt from `k` on. */
  lemma {:induction false} TimedOutMeansAllRejected(probe: Prober, count: nat, k: nat)
    requires k <= MaxAttempts
    requires PollFrom(probe, count, k).verdict == TimedOut
    ensures forall a :: k <= a < MaxAttempts ==> Attempt(probe, a, count) == Rejected
    decreases MaxAttempts - k
  {
    if k < MaxAttempts {
      assert Attempt(probe, k, count) == Rejected;
      TimedOutMeansAllRejected(probe, count, k + 1);
      forall a | k < a < MaxAttempts
        ensures Attempt(probe, a, count) == Rejected
      {
      }
    }
  }

  /** A poll rejected on every attempt from `k` on times out. */
  lemma {:induction false} AllRejectedTimesOut(probe: Prober, count: nat, k: nat)
    requires k <= MaxAttempts
    requires forall a :: k <= a < MaxAttempts ==> Attempt(probe, a, count) == Rejected
    ensures PollFrom(probe, count, k).verdict == TimedOut
    decreases MaxAttempts - k
  {
    if k < MaxAttempts {
      assert Attempt(probe, k, count) == Rejected;
      AllRejectedTimesOut(probe, count, k + 1);
    }
  }

  /** The poll times out exactly when every attempt from `k` on is
      rejected. */
  lemma PollTimesOutIff(probe: Prober, count: nat, k: nat)
    requires k <= MaxAttempts
    ensures PollFrom(probe, count, k).verdict == TimedOut <==>
              forall a :: k <= a < MaxAttempts ==> Attempt(probe, a, count) == Rejected
  {
    if PollFrom(probe, count, k).verdict == TimedOut {
      TimedOutMeansAllRejected(probe, count, k);
    }
    if forall a :: k <= a < MaxAttempts ==> Attempt(probe, a, count) == Rejected {
      AllRejectedTimesOut(probe, count, k);
    }
  }

  /** A poll that does not time out was rejected on every attempt before
      the last one it made, and that last one decides the verdict. */
  lemma {:induction false} PollStopsAtDecidingAttempt(probe: Prober, count: nat, k: nat)
    requires k <= MaxAttempts
    ensures var r := PollFrom(probe, count, k);
            r.verdict != TimedOut ==>
              && (forall a :: k <= a < k + r.waits ==> Attempt(probe, a, count) == Rejected)
              && Attempt(probe, k + r.waits, count) == (if r.verdict == Passed then Accepted else Broken)
    decreases MaxAttempts - k
  {
    if k < MaxAttempts && Attempt(probe, k, count) == Rejected {
      PollStopsAtDecidingAttempt(probe, count, k + 1);
    }
  }

  /** The poll times out exactly when every attempt from `k` on is
      rejected; otherwise every attempt before the last one made was
      rejected, and the last one decides the verdict. */
  lemma {:induction false} PollFromShape(probe: Prober, count: nat, k: nat)
    requires k <= MaxAttempts
    ensures var r := PollFrom(probe, count, k);
            && (r.verdict == TimedOut <==> forall a :: k <= a < MaxAttempts ==> Attempt(probe, a, count) == Rejected)
            && (r.verdict != TimedOut ==>
                  && (forall a :: k <= a < k + r.waits ==> Attempt(probe, a, count) == Rejected)
                  && Attempt(probe, k + r.waits, count) == (if r.verdict == Passed then Accepted else Broken))
  {
    PollTimesOutIff(probe, count, k);
    PollStopsAtDecidingAttempt(probe, count, k);
  }

  /** Starting at attempt `j` instead of a later attempt `k`, when every
      attempt in between is rejected, only shifts the counts by `k - j`. */
  lemma {:induction false} PollSkip(probe: Prober, count: nat, j: nat, k: nat)
    requires j <= k <= MaxAttempts
    requires forall a :: j <= a < k ==> Attempt(probe, a, count) == Rejected
    ensures var r, s := PollFrom(probe, count, j), PollFrom(probe, count, k);
            r == PollResult(s.verdict, s.attempts + (k - j), s.waits + (k - j))
    decreases k - j
  {
    if j < k {
      var rest := PollFrom(probe, count, j + 1);
      assert Attempt(probe, j, count) == Rejected;
      assert PollFrom(probe, count, j) == PollResult(rest.verdict, rest.attempts + 1, rest.waits + 1);
      PollSkip(probe, count, j + 1, k);
    }
  }

  /** The poll as the job runs it for a group of `count` challenges. */
  method PollChallenges(probe: Prober, count: nat) returns (r: PollResult)
    ensures r == PollFrom(probe, count, 0)
  {
    var isValid := true;
    var attempt := 0;
    var waits := 0;
    while attempt < MaxAttempts
      invariant 0 <= attempt <= MaxAttempts && waits == attempt
      invariant forall a :: 0 <= a < attempt ==> Attempt(probe, a, count) == Rejected
    {
      var outcome := RunAttempt(probe, attempt, count);
      if outcome == Broken {
        PollSkip(probe, count, 0, attempt);
        return PollResult(Aborted, attempt + 1, waits);
      }
      isValid := outcome == Accepted;
      if isValid {
        PollSkip(probe, count, 0, attempt);
        return PollResult(Passed, attempt + 1, waits);
      }
      waits := waits + 1;
      attempt := attempt + 1;
    }
    PollSkip(probe, count, 0, attempt);
    r := PollResult(TimedOut, attempt, waits);
  }

  // ---------------------------------------------------------------------------
  // Properties of the poll

  /** The poll passes exactly when some attempt is accepted with every
      earlier attempt rejected. */
  lemma {:induction false} PollPassesIff(probe: Prober, count: nat)
    ensures PollFrom(probe, count, 0).verdict == Passed
            <==> exists a :: 0 <= a < MaxAttempts && Attempt(probe, a, count) == Accepted
                             && forall b :: 0 <= b < a ==> Attempt(probe, b, count) == Rejected
  {
    var r := PollFrom(probe, count, 0);
    PollFromShape(probe, count, 0);
    if exists a :: 0 <= a < MaxAttempts && Attempt(probe, a, count) == Accepted
                   && forall b :: 0 <= b < a ==> Attempt(probe, b, count) == Rejected {
      var a :| 0 <= a < MaxAttempts && Attempt(probe, a, count) == Accepted
               && forall b :: 0 <= b < a ==> Attempt(probe, b, count) == Rejected;
      assert r.verdict != TimedOut;
      assert r.waits == a;
    }
  }

  /** Pending counts as success: a group whose challenges all report Pending
      on the first attempt passes after one attempt. */
  lemma {:induction false} PendingPasses(probe: Prober, count: nat)
    requires forall k :: 0 <= k < count ==> probe(0, k) == Observed(Some(Pending))
    ensures PollFrom(probe, count, 0) == PollResult(Passed, 1, 0)
  {
    assert !AnyFailed(probe, 0, count);
  }

  // ---------------------------------------------------------------------------
  // The poll as intended: only Valid passes, Invalid is final

  /** An attempt that accepts only when every challenge is Valid, refuses as
      soon as one is Invalid (a final state), and otherwise keeps waiting. */
  function IntendedAttempt(probe: Prober, attempt: nat, count: nat): (r: AttemptOutcome)
    ensures r == Accepted <==>
              !AnyFailed(probe, attempt, count) && forall k :: 0 <= k < count ==> probe(attempt, k).status == Some(Valid)
  {
    if AnyFailed(probe, attempt, count) then Broken
    else if forall k :: 0 <= k < count ==> probe(attempt, k).status == Some(Valid) then Accepted
    else Rejected
  }

  predicate AnyInvalid(probe: Prober, attempt: nat, count: nat) {
    exists k :: 0 <= k < count && probe(attempt, k) == Observed(Some(Invalid))
  }

  function IntendedPollFrom(probe: Prober, count: nat, k: nat): (r: PollResult)
    requires k <= MaxAttempts
    ensures r.attempts <= MaxAttempts - k
    ensures r.verdict == Passed ==>
              r.attempts >= 1 && IntendedAttempt(probe, k + r.attempts - 1, count) == Accepted
    ensures r.verdict == Refused ==>
              r.attempts >= 1 && AnyInvalid(probe, k + r.attempts - 1, count)
    decreases MaxAttempts - k
  {
    if k == MaxAttempts then PollResult(TimedOut, 0, 0)
    else
      match IntendedAttempt(probe, k, count)
      case Accepted => PollResult(Passed, 1, 0)
      case Broken => PollResult(Aborted, 1, 0)
      case Rejected =>
        if AnyInvalid(probe, k, count) then PollResult(Refused, 1, 0)
        else
          var rest := IntendedPollFrom(probe, count, k + 1);
          PollResult(rest.verdict, rest.attempts + 1, rest.waits + 1)
  }

  /** In the corrected poll a pass means every challenge was seen Valid. */
  lemma {:induction false} IntendedPassMeansAllValid(probe: Prober, count: nat)
    requires IntendedPollFrom(probe, count, 0).verdict == Passed
    ensures var a := IntendedPollFrom(probe, count, 0).attempts - 1;
            forall k :: 0 <= k < count ==> probe(a, k) == Observed(Some(Valid))
  {
    var a := IntendedPollFrom(probe, count, 0).attempts - 1;
    assert !AnyFailed(probe, a, count);
    forall k | 0 <= k < count ensures probe(a, k) == Observed(Some(Valid)) {
      assert !probe(a, k).ProbeFailed?;
    }
  }

  /** The corrected poll does not pass on Pending; it keeps waiting. */
  lemma {:induction false} IntendedPendingWaits(probe: Prober, count: nat)
    requires count > 0
    requires forall k :: 0 <= k < count ==> probe(0, k) == Observed(Some(Pending))
    ensures IntendedAttempt(probe, 0, count) == Rejected
    ensures IntendedPollFrom(probe, count, 0).waits >= 1
  {
    assert probe(0, 0) == Observed(Some(Pending));
    assert !AnyInvalid(probe, 0, count);
  }
}

=== FILE: seqs.dfy ===
/** Sequence helpers used as reference definitions: order-preserving
    filtering, subsequences and flattening. */
module Seqs {

  /** The elements of `s` that satisfy `p`, in their original order. */
  function Filter<T(==,!new)>(s: seq<T>, p: T -> bool): (r: seq<T>)
    ensures |r| <= |s|
  {
    if |s| == 0 then []
    else
      var init, last := s[..|s| - 1], s[|s| - 1];
      assert s == init + [last];
      Filter(init, p) + (if p(last) then [last] else [])
  }

  /** A value survives filtering exactly when it was there and passes the test. */
  lemma {:induction false} FilterMembership<T(!new)>(s: seq<T>, p: T -> bool)
    ensures forall x :: x in Filter(s, p) <==> x in s && p(x)
    decreases |s|
  {
    if |s| > 0 {
      var init, last := s[..|s| - 1], s[|s| - 1];
      FilterMembership(init, p);
      assert s == init + [last];
    }
  }

  /** Filtering keeps every occurrence of a kept value and none of the others. */
  lemma {:induction false} FilterCount<T(!new)>(s: seq<T>, p: T -> bool)
    ensures forall x :: multiset(Filter(s, p))[x] == if p(x) then multiset(s)[x] else 0
    decreases |s|
  {
    if |s| > 0 {
      var init, last := s[..|s| - 1], s[|s| - 1];
      FilterCount(init, p);
      assert s == init + [last];
      assert multiset(s) == multiset(init) + multiset{last};
      assert Filter(s, p) == Filter(init, p) + (if p(last) then [last] else []);
    }
  }

  /** `a` can be obtained from `b` by deleting elements. */
  predicate IsSubsequence<T(==)>(a: seq<T>, b: seq<T>)
    decreases |b|
  {
    if |a| == 0 then true
    else if |b| == 0 then false
    else if a[|a| - 1] == b[|b| - 1] then IsSubsequence(a[..|a| - 1], b[..|b| - 1])
    else IsSubsequence(a, b[..|b| - 1])
  }

  /** Filtering keeps the relative order of what it keeps. */
  lemma {:induction false} FilterIsSubsequence<T(!new)>(s: seq<T>, p: T -> bool)
    ensures IsSubsequence(Filter(s, p), s)
    decreases |s|
  {
    if |s| > 0 {
      var init, last := s[..|s| - 1], s[|s| - 1];
      FilterIsSubsequence(init, p);
      FilterMembership(init, p);
      var f := Filter(init, p);
      if p(last) {
        assert Filter(s, p) == f + [last];
        assert (f + [last])[..|f|] == f;
      } else {
        assert Filter(s, p) == f;
        if |f| > 0 {
          assert f[|f| - 1] in f;
          assert f[|f| - 1] != last;
        }
      }
    }
  }

  /** Filtering one more element at the end extends the filtered prefix. */
  lemma FilterSnoc<T(!new)>(s: seq<T>, x: T, p: T -> bool)
    ensures Filter(s + [x], p) == Filter(s, p) + (if p(x) then [x] else [])
  {
    assert (s + [x])[..|s|] == s;
  }

  /** Filtering a prefix one element longer, as a loop over `s` does. */
  lemma FilterPrefixStep<T(!new)>(s: seq<T>, i: nat, p: T -> bool)
    requires i < |s|
    ensures Filter(s[..i + 1], p) == Filter(s[..i], p) + (if p(s[i]) then [s[i]] else [])
  {
    assert s[..i + 1] == s[..i] + [s[i]];
    FilterSnoc(s[..i], s[i], p);
  }

  /** The concatenation of all parts, in order. */
  function Flatten<T>(parts: seq<seq<T>>): seq<T> {
    if |parts| == 0 then [] else Flatten(parts[..|parts| - 1]) + parts[|parts| - 1]
  }

  /** A value is in the flattening exactly when some part holds it. */
  lemma {:induction false} FlattenMembership<T(!new)>(parts: seq<seq<T>>)
    ensures forall x :: x in Flatten(parts) <==> exists i :: 0 <= i < |parts| && x in parts[i]
    decreases |parts|
  {
    if |parts| > 0 {
      var init := parts[..|parts| - 1];
      FlattenMembership(init);
      assert forall i :: 0 <= i < |init| ==> init[i] == parts[i];
    }
  }

  lemma {:induction false} FlattenAppend<T(!new)>(a: seq<seq<T>>, b: seq<seq<T>>)
    ensures Flatten(a + b) == Flatten(a) + Flatten(b)
    decreases |b|
  {
    if |b| == 0 {
      assert a + b == a;
    } else {
      var b' := b[..|b| - 1];
      assert (a + b)[..|a + b| - 1] == a + b';
      FlattenAppend(a, b');
    }
  }
}

=== FILE: txt_zone.dfy ===
/** The DNS zone as the services see it through the Azure SDK: a map from
    relative record name to its TXT record set. An absent name is the
    provider's HTTP 404. Whether each SDK call reaches the provider is an
    oracle (`Reply`) chosen by the caller of the model.
 */
module TxtZone {
  import opened Outcomes
  import Seqs

  /** The status code the provider answers for a missing record set. */
  const NotFound: int := 404

  /** The TTL a record set created by the job carries. */
  const DefaultTtlSeconds: nat := 60

  /** A TXT record set: its TTL (absent when the data was built without one)
      and its entries, each entry a list of string values. */
  datatype TxtRecordSet = TxtRecordSet(ttl: Option<nat>, entries: seq<seq<string>>)

  type Zone = map<string, TxtRecordSet>

  /** How one SDK call went: it reached the provider, or it failed with an
      HTTP status (a failed write is the same as an error response). */
  datatype Reply = Delivered | Failed(status: int)

  /** What a lookup of a record set produced. */
  datatype Lookup = Found(recordSet: TxtRecordSet) | Missing | LookupFailed(status: int)

  /** The result of a DNS service operation: the value returned together with
      the zone afterwards, or the exception it let through (nothing written). */
  datatype DnsResult<+T> = Answer(value: T, zone: Zone) | Raised(fault: Fault)

  /** Looking up `name`: a 404, whether answered by the provider or implied by
      an absent name, is `Missing`; any other failure keeps its status. */
  function Fetch(zone: Zone, name: string, reply: Reply): (r: Lookup)
    ensures r.Missing? <==> reply == Failed(NotFound) || (reply == Delivered && name !in zone)
    ensures r.Found? <==> reply == Delivered && name in zone
    ensures r.Found? ==> r.recordSet == zone[name]
    ensures r.LookupFailed? ==> reply == Failed(r.status) && r.status != NotFound
  {
    match reply
    case Failed(status) => if status == NotFound then Missing else LookupFailed(status)
    case Delivered => if name in zone then Found(zone[name]) else Missing
  }

  /** Every value of every entry, flattened in entry order. */
  function Values(recordSet: TxtRecordSet): seq<string> {
    Seqs.Flatten(recordSet.entries)
  }
}
